=== FILE: README.md ===
# Neuro-graph dynamics: retry loops, model dispatch and graph exports

This project is a Dafny model of the logic at the centre of a small knowledge-graph
application about philosophers and their schools. The application has a
command-line version (`main.py`), a Flask web version (`app.py`), helpers that call
AWS Bedrock (`bedrock_helper.py`) and a local Ollama server (`ollama_helper.py`), and
a browser script (`static/js/home.js`). The model covers the parts that decide
what the program does, as opposed to what libraries do for it:

- **Knowledge-base query** (`KnowledgeBase`). `query_knowledge_base` makes up to
  `max_retries` retrieval attempts. It sleeps `base_delay * 2 ** attempt` after a
  throttling error (`ThrottlingException`, `RequestLimitExceeded`) or after any
  exception that is not a `ClientError` (botocore's `NoRegionError` and
  `NoCredentialsError` among them), gives up at once on any other client error, and never
  sleeps after the last attempt. On success it splits each passage on whitespace,
  the way Python's `str.split()` does (`Split`), keeps passages of at least three
  tokens as (source, relation, target, key) records, and returns the first five.
- **Model listing** (`Ollama`). `get_ollama_models` makes up to `max_retries`
  requests to `/tags`, with a constant `retry_delay` between them. It returns the
  `name` of every listed model from the first status-200 reply.
- Both loops run on one executor (`Retry`). The executor is a pure function over a
  script of attempt outcomes, and it records the sleeps it would make as a trace.
- **Model invocation** (`BedrockInvoke`). `invoke_bedrock_model` chooses the request
  body and the reply path from the model-ID prefix (`anthropic.`, `ai21.`, `amazon.`).
  Every failure becomes an `"Error: …"` string.
- **The graph** (`KnowledgeGraph`, `GraphData`). This covers:
  - the attribute map `add_node` stores, and the map the `/add_edge` route stores;
  - `query`'s reply for an unknown node;
  - the Mermaid text `export_to_mermaid` builds;
  - the `edges` → `links` renaming, the key check and the `len` check of `/load_graph`.
- **The browser** (`HomePage`). This covers `escapeLabel` and the Mermaid text that
  `loadAndRenderGraph` builds from `nodes` and `links`, including the cases where a
  JavaScript `TypeError` aborts it.

Remote services are parameters. The Bedrock runtime is a function from request
body to outcome. The retrieval service and the Ollama server are scripts with one
outcome per attempt. Python and JavaScript values are the small `Values.Value` type.

Both retry loops run over `range(max_retries)`: at most `max_retries` calls and at
most `max_retries - 1` sleeps.

## Model

| member | source | states |
|---|---|---|
| Retry.From | bedrock_helper.py:142-208 | The attempt loop stops at the first success or non-retried error, or after the last permitted attempt. Every attempt before the one that ended it failed transiently. The result is the success value or the fallback. There are `calls - 1` sleeps, and sleep `j` is the delay for attempt `j`. |
| Retry.Execute | ollama_helper.py:21-39 | With `max_retries <= 0` no call is made and the fallback is returned. Otherwise there are 1 to `max_retries` calls, and the sleeps are exactly the delays of the first `calls - 1` attempts. |
| Retry.FirstNonTransientStops | bedrock_helper.py:181-197 | If attempts `0..k-1` all fail transiently and attempt `k` does not, the loop makes `k + 1` calls and sleeps `k` times. It returns attempt `k`'s value, or the fallback for a fatal error. |
| Retry.AllTransientExhausts | ollama_helper.py:34-39 | If every attempt fails transiently, all `max_retries` calls are made, with `max_retries - 1` sleeps, and the fallback is returned. |
| Retry.ResultIsValueOrFallback | bedrock_helper.py:197-211 | The loop returns only a success value from the script or the fallback. |
| Split.Tokens | bedrock_helper.py:172 | `str.split()` yields only non-empty tokens without whitespace, and their concatenation is the input with all whitespace removed. |
| Split.TokensOfWord | bedrock_helper.py:172 | A non-empty run of non-whitespace characters splits into exactly itself. |
| Split.TokensAroundSpace | bedrock_helper.py:172 | Any single whitespace character is a token boundary: splitting `a + [c] + b` gives the tokens of `a` followed by those of `b`. |
| Split.TokensOfJoinWords | bedrock_helper.py:172 | Splitting words joined by single spaces gives back exactly those words. |
| KnowledgeBase.RecordsFrom | bedrock_helper.py:168-179 | Each record holds tokens 0, 1 and 2 of the passage its key names, as source, relation and target. Keys strictly increase. A passage gets a record if and only if it has at least three tokens. |
| KnowledgeBase.ParseResults | bedrock_helper.py:168-181 | At most five records are returned, in passage order, each describing its passage. The keys are exactly the passages with a triple, cut after the fifth. |
| KnowledgeBase.Classify | bedrock_helper.py:183-208 | A retrieval succeeds with its parsed records. A throttling client error or any other exception is retried. Any other client error is final. All three cases are stated as if-and-only-if. |
| KnowledgeBase.QueryKnowledgeBase | bedrock_helper.py:139-211 | The query makes at most `max_retries` calls. Sleep `j` is `base_delay * 2 ** j`. The result never exceeds five records. |
| KnowledgeBase.SuccessStops | bedrock_helper.py:164-181 | After `k` retried failures, a successful retrieval returns its parsed records after `k + 1` calls and the first `k` backoff sleeps. |
| KnowledgeBase.NonThrottleErrorStops | bedrock_helper.py:183-197 | A client error with any other code returns `[]` immediately, with no further sleep. |
| KnowledgeBase.RetryableExhausts | bedrock_helper.py:190-211 | If every attempt is throttled or raises, all attempts run, with backoff sleeps between them only, and the result is `[]`. |
| KnowledgeBase.BackoffIncreasing | bedrock_helper.py:192 | For a positive base delay, each backoff sleep is strictly longer than the one before. |
| KnowledgeBase.BackoffTotal | bedrock_helper.py:192-194 | `n` backoff sleeps add up to `base_delay * (2 ** n - 1)`. |
| KnowledgeBase.DefaultPolicyAlwaysThrottled | bedrock_helper.py:139-194 | With the default arguments and constant throttling, the query makes three calls, sleeps 1 s and then 2 s, and returns `[]`. |
| Ollama.ModelNames | ollama_helper.py:25-26 | The list comprehension yields the models' names in order if and only if every entry has a `name`. Otherwise the `KeyError` escapes. |
| Ollama.Classify | ollama_helper.py:23-33 | Only a status-200 reply ends the loop. A non-200 reply and a connection error are both retried, and nothing is fatal. |
| Ollama.GetOllamaModels | ollama_helper.py:20-39 | At most `max_retries` requests are made, and every sleep is `retry_delay`. With `max_retries <= 0` no request is made and the result is `[]`. |
| Ollama.SuccessOnAttempt | ollama_helper.py:21-36 | If the first 200 reply is on attempt `k`, there are `k + 1` requests and `k` sleeps of `retry_delay`, and the result is that reply's names. |
| Ollama.NoModelsKey | ollama_helper.py:24-26 | A 200 reply without `models` ends the loop after one request with no sleep and returns `[]`. |
| Ollama.AllFail | ollama_helper.py:34-39 | If every request fails, `max_retries` requests and `max_retries - 1` sleeps are made, and the result is `[]`. |
| Ollama.DefaultPolicyAllFail | ollama_helper.py:20-39 | With the default arguments and every request failing, there are three requests, sleeps of 5 s and 5 s, and the result is `[]`. |
| Ollama.FailuresAlike | ollama_helper.py:24-33 | Replacing a non-200 reply with a connection error, at any position, changes nothing. |
| BedrockInvoke.FamilyOf | bedrock_helper.py:43-67 | The chosen provider's prefix starts the model ID. No provider is chosen if and only if none of the three prefixes does. |
| BedrockInvoke.PrefixesExclusive | bedrock_helper.py:43-57 | No model ID starts with two different provider prefixes. |
| BedrockInvoke.PromptText | bedrock_helper.py:45-59 | The prompt text sent always starts with the system prompt. |
| BedrockInvoke.UserPromptRoundTrip | bedrock_helper.py:45-59 | The user's prompt can be recovered verbatim from each provider's prompt text. |
| BedrockInvoke.BuildPayload | bedrock_helper.py:43-67 | A body is built if and only if the prefix is supported. The body has that provider's shape and carries its prompt text, 300 tokens, temperature 0.7 and top-p 0.9. |
| BedrockInvoke.FollowNest | bedrock_helper.py:75-80 | Following a reply path through the JSON built along that path yields the value placed at its end. |
| BedrockInvoke.ErrorString | bedrock_helper.py:88-91 | Every caught exception becomes `"Error: "` followed by its message. |
| BedrockInvoke.InvokeBedrockModel | bedrock_helper.py:36-91 | An error string always starts with `"Error: "`. A client-setup failure wins over an unsupported ID. An unsupported ID never reaches the service. A completion is returned if and only if the service returns a reply to the provider's body in which the provider's path is found, and it is the value found there. An exception from the service gives `"Error: "` and its message. A missing key or index on the path gives `"Error: "` and the `KeyError` or `IndexError` text for that step. |
| BedrockInvoke.InvokeReadsDocumentedReply | bedrock_helper.py:74-80 | A reply nesting a value along the provider's path, as each provider documents, yields exactly that value. |
| BedrockInvoke.MissingCompletionKey | bedrock_helper.py:74-91 | An Anthropic reply object without `completion` raises `KeyError` and gives exactly `"Error: 'completion'"`. |
| BedrockInvoke.EmptyCompletionsList | bedrock_helper.py:76-91 | An AI21 reply whose `completions` list is empty raises `IndexError` and gives exactly `"Error: list index out of range"`. |
| BedrockInvoke.UnsupportedMessage | bedrock_helper.py:66-91 | An unsupported ID gives exactly `"Error: Unsupported model ID: <id>"`. |
| BedrockInvoke.InvokeReadsCompletion | bedrock_helper.py:69-80 | For a supported ID, any reply body in which the provider's path reaches a value yields exactly that value as the completion. |
| KnowledgeGraph.NodeAttributes | main.py:12-14 | The stored map is `attributes or {}`. A truthy `lifetime` is added under `lifetime` and every other key is kept. A falsy one leaves the map unchanged. |
| KnowledgeGraph.NodeAttributesIdempotent | main.py:12-14 | Passing the stored map back with the same lifetime stores the same map. |
| KnowledgeGraph.AddNode | main.py:10-15 | The node is added and no other node changes. A new node gets exactly the stored map. An existing node's keys become its old keys plus the new ones, new values win, and every old attribute not overridden keeps its value. |
| KnowledgeGraph.RouteEdgeAttributes | app.py:84-88 | The map `/add_edge` passes to `add_edge` has exactly one key, `relation`: the request's value, or `None` if the request has none. |
| KnowledgeGraph.Query | main.py:34-37 | The not-found message is returned if and only if the node is not in the graph. |
| KnowledgeGraph.NotFoundNamesNode | main.py:36-37 | The message is `Node '<x>' not found in the graph.`, and it names the node asked for. |
| KnowledgeGraph.AddedNodeIsFound | main.py:10-37 | After `add_node`, `query` no longer reports the node missing. |
| KnowledgeGraph.NodeToken | main.py:75 | An id written into the diagram keeps its length, has every space replaced by `_`, and keeps every other character. |
| KnowledgeGraph.EdgeWithoutRelation | main.py:74-75 | An edge with no `relation` attribute gets an empty label: nothing between the two bars of its arrow. |
| KnowledgeGraph.RouteEdgeWithoutRelation | app.py:87-88 | An `/add_edge` request with no `relation` stores `None`, which the export writes as the label `None`. |
| KnowledgeGraph.ExportToMermaid | main.py:69-76 | The text is the `graph TD` header followed by one line per edge, in edge order. |
| Strings.AppendEach | main.py:71-76 | A loop of `+=` over a list leaves the start text followed by each element's piece, in list order. |
| KnowledgeGraph.EdgeLinesAppend | main.py:71-76 | Exporting two edge lists in sequence concatenates their lines. |
| KnowledgeGraph.OneLinePerEdge | main.py:71-76 | If no id or label contains a newline, the text has exactly one newline more than there are edges. |
| KnowledgeGraph.ParseEdgeLineRoundTrip | main.py:75 | If a label contains no vertical bar, its line reads back as the edge's source token, label and target token. |
| GraphData.NormalizeLinks | app.py:44-46 | `links` is present afterwards if and only if `links` or `edges` was. An existing `links` wins and nothing changes. Otherwise `edges` is renamed to `links`, and every other key is kept. |
| GraphData.NormalizeLinksIdempotent | app.py:121-122 | Normalising twice is the same as normalising once. |
| GraphData.LoadGraphRoute | app.py:113-135 | Bad JSON gives 400 `Invalid JSON: …`. Data without `nodes`, or without both `links` and `edges`, gets 400 with the exact `Missing key in JSON: "…"` message, and only such data does. With the keys present, a `nodes` or `links` value that `len` refuses gives the 500 reply. The data is handed on, normalised, if and only if the keys are present and both values have a length. |
| GraphData.UnsizedValueFails | app.py:125-135 | Data that passes the key check but has a `nodes` or `links` value without a length, such as `null`, gets the 500 reply. |
| GraphData.LinksWin | app.py:121-126 | A document that already has `nodes` and `links`, both with a length, is handed on unchanged. |
| HomePage.EscapeChar | static/js/home.js:3-10 | Each special character becomes an entity without `<`, `>`, `'` or `"`. Every other character stays as it is. |
| HomePage.EscapeLabel | static/js/home.js:1-12 | The escaped label is never shorter and contains no `<`, `>`, `'` or `"`. A label without special characters is unchanged. |
| HomePage.EscapeLabelAppend | static/js/home.js:2 | The global replace acts character by character, so escaping distributes over concatenation. |
| HomePage.UnescapeEscapeLabel | static/js/home.js:1-12 | Decoding the five entities gives back the original label, so escaping loses nothing. |
| HomePage.Find | static/js/home.js:89 | `nodes.find` fails if and only if no node has the id. Otherwise it returns the first listed node with that id. |
| HomePage.LabelFallsBackToId | static/js/home.js:89 | A node with no label, or a falsy one, is shown by its id. |
| HomePage.Escaped | static/js/home.js:89 | `escapeLabel` succeeds if and only if its argument is a string. |
| HomePage.LineQuotes | static/js/home.js:89 | A link line has exactly four double quotes, those around the two labels. |
| HomePage.JoinLinesSome | static/js/home.js:88-90 | The `forEach` completes if and only if no line throws. |
| HomePage.JoinLinesAppend | static/js/home.js:88-90 | Rendering a concatenation of links gives the lines of the first part followed by those of the second, so more links only append lines. |
| HomePage.LinkLines | static/js/home.js:88-90 | The link lines are built if and only if every link is renderable. They then hold exactly four quotes per link. |
| HomePage.LinkLinesSnoc | static/js/home.js:88-90 | One more link adds exactly its own line after the lines of the links before it, and the lines are built if and only if both parts are. |
| HomePage.MermaidCode | static/js/home.js:84-90 | Code is produced if and only if every link is renderable. It starts with `graph TD` and holds four quotes per link. |
| HomePage.MermaidCodeLines | static/js/home.js:84-90 | If no id, label or relation holds a newline, the code has exactly one newline more than there are links: the header line and one line per link. |

## Left out

- Remote calls. The boto3 clients, the HTTP GET and the JSON decoding of replies are replaced by scripts or by a service function. A reply to the knowledge-base query that lacks `retrievalResults` or `content` raises inside the attempt, so it is one of the `OtherError` outcomes. So is a `content` that is not a string, whose `.split()` raises `AttributeError`.
- Ollama reply body. The model assumes a 200 reply decodes as a JSON object whose `models`, if present, is a list of objects. A body that does not decode is not modelled. Neither is `"models": null` or a list entry that is not an object: each raises `TypeError` out of `get_ollama_models`, and the model cannot represent such a reply.
- `time.sleep`. It is recorded as a trace of delays, not performed. Logging and `print` output are left out.
- `KnowledgeBase.QueryKnowledgeBase`: `base_delay` is a whole number of milliseconds, not a float of seconds. The delays for fractional milliseconds are therefore not modelled.
- `KnowledgeBase.QueryKnowledgeBase`: `base_delay` cannot be negative. In Python a negative delay makes `time.sleep` raise `ValueError` inside the `except` handler, so the error escapes the function instead of being retried. That case is not modelled.
- `Ollama.GetOllamaModels`: `retry_delay` is a whole number of seconds. Python accepts any number, and fractional delays are not modelled.
- `Ollama.GetOllamaModels`: `retry_delay` cannot be negative. In Python a negative delay makes `time.sleep` raise `ValueError` outside the `try`, so the error escapes the function. That case is not modelled.
- Floats. The temperature and top-p settings are Dafny reals. No arithmetic is done on them.
- `max_results`. It is only forwarded to the retrieval service, so it does not appear in the model. The knowledge-base ID and the payload logging are left out too.
- `BedrockInvoke.InvokeBedrockModel`: a value of the wrong type on the reply path raises `TypeError` in Python (a string indexed by a key, say), or `KeyError(0)`, giving `"Error: 0"`, for an object indexed by 0. A non-empty string indexed by 0 does not raise at all, and the failure comes one step later. The model reports every such case as a missing key or index, so the error text differs.
- `ClientError`. The model uses only the message string of a `ClientError` raised by `invoke_model`. The error code and the `ValidationException` logging are left out.
- `list_bedrock_models`, `query_bedrock_kb` and `enrich_node_info`. These are other remote calls and prompt templates outside the modelled logic.
- `database.py` and `gemini_helper.py` are not part of this model.
- `networkx`. The node-link conversion, edge order, neighbours, PageRank, Louvain communities and shortest paths are left out, and so are `save_graph`, `load_graph` file I/O and `visualize`. Edge order is taken as given.
- `KnowledgeGraph.Query`: the report for a node that exists is built from Python reprs of dicts and lists, so only its presence is modelled.
- `KnowledgeGraph.AddNode`: node ids are strings. Python also accepts other hashable ids.
- `KnowledgeGraph.Query`: the asked-for node is a string. `/query_node` without a `node` parameter passes `None`, which is not modelled.
- Attribute values. Floats, lists and dicts are not modelled; values are strings, integers, booleans or `None`.
- `KnowledgeGraph.NodeAttributes`: when `lifetime` is set, Python also adds the key to the caller's own dict. That aliasing is not modelled.
- `KnowledgeGraph.RouteEdgeAttributes`: when the edge already exists, networkx merges the map into the edge's existing attributes. The member gives only the map passed.
- The app.py `add_node` route and class, `add_edge` and `query`. They repeat the main.py logic without `lifetime`, so they are covered by the main.py members.
- `/load_graph`. Decoded values are modelled as JSON objects only. A list or a string also reaches the key test, where `in` tests membership or a substring; one that lacks `nodes`, or both `links` and `edges`, gets the same 400 `Missing key in JSON: "…"` reply as an object would. The 500 branch is modelled only for the `len` calls of the log line (see `GraphData.LoadGraphRoute` below); its message text is not modelled. Its other causes are left out: a missing `file_content`, or one that is not a string (slicing it or `json.loads` raises `TypeError`); a decoded number, boolean or `null` (`in` raises `TypeError`); a list or string holding `edges` but not `links` (`pop('edges')` raises); and a list or string that passes the key test (`data['nodes']` raises `TypeError`). Failures inside `node_link_graph` are left out too.
- `GraphData.LoadGraphRoute`: `Loaded` means the data passed the key check and both `len` calls; it does not mean `node_link_graph` accepts it. That call, `save_graph` and the success reply are left out.
- The command-line menu, Flask routing and JSON responses, jQuery event handlers and `mermaid.init` are left out.

=== FILE: bedrock_invoke.dfy ===
/**
 * `invoke_bedrock_model`: the model-ID prefix picks the request body that is sent
 * and the path of the field read back from the reply; any other prefix, and every
 * exception, comes back as an `"Error: …"` string instead of a completion.
 */
module BedrockInvoke {
  import opened Strings
  import opened Wrappers

  /** The token limit every request body carries. */
  const MaxTokens: nat := 300
  /** The sampling settings every request body carries. */
  const Temperature: real := 0.7
  const TopP: real := 0.9

  /** The model providers the dispatch knows. */
  datatype Family = Anthropic | Ai21 | Amazon

  function Prefix(f: Family): string {
    match f
    case Anthropic => "anthropic."
    case Ai21 => "ai21."
    case Amazon => "amazon."
  }

  /** The provider whose prefix `modelId` starts with, tried in the source's order. */
  function FamilyOf(modelId: string): (f: Option<Family>)
    ensures f.Some? ==> StartsWith(modelId, Prefix(f.value))
    ensures f.None? <==> forall g: Family :: !StartsWith(modelId, Prefix(g))
  {
    if StartsWith(modelId, Prefix(Anthropic)) then Some(Anthropic)
    else if StartsWith(modelId, Prefix(Ai21)) then Some(Ai21)
    else if StartsWith(modelId, Prefix(Amazon)) then Some(Amazon)
    else None
  }

  /** No model ID starts with two of the prefixes, so the order of the tests is immaterial. */
  lemma PrefixesExclusive(modelId: string, f: Family, g: Family)
    requires StartsWith(modelId, Prefix(f)) && StartsWith(modelId, Prefix(g))
    ensures f == g
  {
    assert modelId[1] == Prefix(f)[1] == Prefix(g)[1];
  }

  const HumanTag: string := "\n\nHuman: "
  const AssistantTag: string := "\n\nAssistant:"
  const Separator: string := "\n\n"

  /** The prompt text sent to a provider: the system prompt, then the user's prompt. */
  function PromptText(f: Family, systemPrompt: string, prompt: string): (t: string)
    ensures StartsWith(t, systemPrompt)
  {
    match f
    case Anthropic => systemPrompt + HumanTag + prompt + AssistantTag
    case _ => systemPrompt + Separator + prompt
  }

  /** Recovers the user's prompt from a prompt text, given the system prompt's length. */
  function UserPrompt(f: Family, systemLength: nat, t: string): string {
    var (lead, trail) := if f.Anthropic? then (|HumanTag|, |AssistantTag|) else (|Separator|, 0);
    if systemLength + lead + trail <= |t| then t[systemLength + lead .. |t| - trail] else []
  }

  /** The user's prompt is carried verbatim: it can be read back out of the prompt text. */
  lemma UserPromptRoundTrip(f: Family, systemPrompt: string, prompt: string)
    ensures UserPrompt(f, |systemPrompt|, PromptText(f, systemPrompt, prompt)) == prompt
  {
  }

  /** The JSON request bodies, one shape per provider. */
  datatype Payload =
    | AnthropicBody(prompt: string, maxTokensToSample: nat, temperature: real, topP: real)
    | Ai21Body(prompt: string, maxTokens: nat, temperature: real, topP: real)
    | AmazonBody(inputText: string, textGenerationConfig: TextGenerationConfig)

  datatype TextGenerationConfig = TextGenerationConfig(maxTokenCount: nat, temperature: real, topP: real)

  function PayloadFamily(p: Payload): Family {
    match p
    case AnthropicBody(_, _, _, _) => Anthropic
    case Ai21Body(_, _, _, _) => Ai21
    case AmazonBody(_, _) => Amazon
  }

  function PayloadPrompt(p: Payload): string {
    match p
    case AnthropicBody(t, _, _, _) => t
    case Ai21Body(t, _, _, _) => t
    case AmazonBody(t, _) => t
  }

  /** True iff the body carries the fixed token limit and sampling settings. */
  predicate FixedSettings(p: Payload) {
    match p
    case AnthropicBody(_, n, temp, topP) => n == MaxTokens && temp == Temperature && topP == TopP
    case Ai21Body(_, n, temp, topP) => n == MaxTokens && temp == Temperature && topP == TopP
    case AmazonBody(_, c) => c == TextGenerationConfig(MaxTokens, Temperature, TopP)
  }

  /** The request body for `modelId`, or `None` for an unsupported ID. */
  function BuildPayload(modelId: string, prompt: string, systemPrompt: string): (p: Option<Payload>)
    ensures p.None? <==> FamilyOf(modelId).None?
    ensures p.Some? ==>
      && PayloadFamily(p.value) == FamilyOf(modelId).value
      && PayloadPrompt(p.value) == PromptText(PayloadFamily(p.value), systemPrompt, prompt)
      && FixedSettings(p.value)
  {
    match FamilyOf(modelId)
    case None => None
    case Some(f) =>
      var t := PromptText(f, systemPrompt, prompt);
      Some(match f
        case Anthropic => AnthropicBody(t, MaxTokens, Temperature, TopP)
        case Ai21 => Ai21Body(t, MaxTokens, Temperature, TopP)
        case Amazon => AmazonBody(t, TextGenerationConfig(MaxTokens, Temperature, TopP)))
  }

  // ---------------------------------------------------------------- the reply

  /** A decoded JSON reply body. */
  datatype Json =
    | JString(s: string)
    | JNumber(n: int)
    | JBool(b: bool)
    | JNull
    | JArray(items: seq<Json>)
    | JObject(fields: map<string, Json>)

  /** One subscript: `body[name]` or `body[index]`. */
  datatype PathStep = Field(name: string) | Index(index: nat)

  /** The subscripts applied to the reply body to reach the completion text. */
  function ReplyPath(f: Family): seq<PathStep> {
    match f
    case Anthropic => [Field("completion")]
    case Ai21 => [Field("completions"), Index(0), Field("data"), Field("text")]
    case Amazon => [Field("results"), Index(0), Field("outputText")]
  }

  /** The value a path reaches, or the first subscript that fails. */
  datatype Lookup = Found(value: Json) | Missing(step: PathStep)

  function Follow(j: Json, path: seq<PathStep>): (l: Lookup)
    decreases |path|
    ensures l.Missing? ==> l.step in path
  {
    if |path| == 0 then Found(j)
    else if !Reaches(j, path[0]) then Missing(path[0])
    else
      var rest := Follow(NextOr(j, path[0]), path[1..]);
      assert rest.Missing? ==> rest.step in path[1..];
      rest
  }

  /** True iff subscript `s` is defined on `j`. */
  predicate Reaches(j: Json, s: PathStep) {
    match s
    case Field(k) => j.JObject? && k in j.fields
    case Index(i) => j.JArray? && i < |j.items|
  }

  /** `j[s]` where it is defined, `null` elsewhere. */
  function NextOr(j: Json, s: PathStep): Json {
    if !Reaches(j, s) then JNull
    else match s
      case Field(k) => j.fields[k]
      case Index(i) => j.items[i]
  }

  /** The smallest JSON in which `path` leads to `v`; padding array slots are `null`. */
  function Nest(path: seq<PathStep>, v: Json): Json {
    if |path| == 0 then v
    else
      var inner := Nest(path[1..], v);
      match path[0]
      case Field(k) => JObject(map[k := inner])
      case Index(i) => JArray(seq(i, _ => JNull) + [inner])
  }

  /** Following a path through the JSON built along it yields the value put there. */
  lemma {:induction false} FollowNest(path: seq<PathStep>, v: Json)
    ensures Follow(Nest(path, v), path) == Found(v)
  {
    if |path| > 0 {
      FollowNest(path[1..], v);
    }
  }

  /** The reply a provider sends for completion text `text`. */
  function ServiceReply(f: Family, text: string): Json {
    Nest(ReplyPath(f), JString(text))
  }

  /** How the remote call ended: an exception's `str()`, or the decoded body. */
  datatype CallOutcome = Raised(message: string) | Returned(body: Json)

  /** What the function returns: the value read from the reply, or an error string. */
  datatype Reply = Completion(value: Json) | ErrorText(text: string)

  const ErrorPrefix: string := "Error: "

  /** `f"Error: {str(e)}"`, the string every caught exception becomes. */
  function ErrorString(message: string): (t: string)
    ensures StartsWith(t, ErrorPrefix) && t[|ErrorPrefix|..] == message
  {
    ErrorPrefix + message
  }

  const Unsupported: string := "Unsupported model ID: "

  /** `str()` of the exception a failing subscript raises. */
  function LookupError(s: PathStep): string {
    match s
    case Field(k) => "'" + k + "'"          // KeyError
    case Index(_) => "list index out of range"  // IndexError
  }

  /**
   * `invoke_bedrock_model(model_id, prompt, system_prompt)`.  `setupError` is the
   * message of an exception raised while creating the client, which happens before
   * the prefix is examined; `service` answers the request body sent for `model_id`.
   */
  function InvokeBedrockModel(
    modelId: string, prompt: string, systemPrompt: string,
    setupError: Option<string>, service: (string, Payload) -> CallOutcome): (r: Reply)
    ensures r.ErrorText? ==> StartsWith(r.text, ErrorPrefix)
    ensures setupError.Some? ==> r == ErrorText(ErrorString(setupError.value))
    ensures setupError.None? && FamilyOf(modelId).None? ==> r == ErrorText(ErrorString(Unsupported + modelId))
    ensures r.Completion? <==>
      && setupError.None? && FamilyOf(modelId).Some?
      && var call := service(modelId, BuildPayload(modelId, prompt, systemPrompt).value);
         call.Returned? && Follow(call.body, ReplyPath(FamilyOf(modelId).value)).Found?
    ensures setupError.None? && FamilyOf(modelId).Some? ==>
      var call := service(modelId, BuildPayload(modelId, prompt, systemPrompt).value);
      && (call.Raised? ==> r == ErrorText(ErrorString(call.message)))
      && (call.Returned? ==>
            var l := Follow(call.body, ReplyPath(FamilyOf(modelId).value));
            && (l.Found? ==> r == Completion(l.value))
            && (l.Missing? ==> r == ErrorText(ErrorString(LookupError(l.step)))))
  {
    if setupError.Some? then ErrorText(ErrorString(setupError.value))
    else
      match BuildPayload(modelId, prompt, systemPrompt)
      case None => ErrorText(ErrorString(Unsupported + modelId))
      case Some(payload) =>
        match service(modelId, payload)
        case Raised(m) => ErrorText(ErrorString(m))
        case Returned(body) =>
          match Follow(body, ReplyPath(FamilyOf(modelId).value))
          case Found(v) => Completion(v)
          case Missing(step) => ErrorText(ErrorString(LookupError(step)))
  }

  /** An unsupported ID yields exactly `"Error: Unsupported model ID: <id>"`. */
  lemma UnsupportedMessage(modelId: string, prompt: string, systemPrompt: string,
                           service: (string, Payload) -> CallOutcome)
    requires FamilyOf(modelId).None?
    ensures InvokeBedrockModel(modelId, prompt, systemPrompt, None, service)
         == ErrorText("Error: Unsupported model ID: " + modelId)
  {
    UnsupportedText(modelId);
  }

  lemma UnsupportedText(modelId: string)
    ensures ErrorString(Unsupported + modelId) == "Error: Unsupported model ID: " + modelId
  {
    assert ErrorPrefix + Unsupported == "Error: Unsupported model ID: ";
    assert ErrorPrefix + (Unsupported + modelId) == (ErrorPrefix + Unsupported) + modelId;
  }

  /**
   * For a supported ID, whatever else the reply holds, the value at the provider's
   * path is what comes back.
   */
  lemma InvokeReadsCompletion(
    modelId: string, prompt: string, systemPrompt: string, body: Json, v: Json,
    service: (string, Payload) -> CallOutcome)
    requires FamilyOf(modelId).Some?
    requires service(modelId, BuildPayload(modelId, prompt, systemPrompt).value) == Returned(body)
    requires Follow(body, ReplyPath(FamilyOf(modelId).value)) == Found(v)
    ensures InvokeBedrockModel(modelId, prompt, systemPrompt, None, service) == Completion(v)
  {
  }

  /** A reply of the provider's documented shape gives back exactly its completion text. */
  lemma InvokeReadsDocumentedReply(
    modelId: string, prompt: string, systemPrompt: string, text: string,
    service: (string, Payload) -> CallOutcome)
    requires FamilyOf(modelId).Some?
    requires service(modelId, BuildPayload(modelId, prompt, systemPrompt).value)
          == Returned(ServiceReply(FamilyOf(modelId).value, text))
    ensures InvokeBedrockModel(modelId, prompt, systemPrompt, None, service) == Completion(JString(text))
  {
    FollowNest(ReplyPath(FamilyOf(modelId).value), JString(text));
  }

  /** An Anthropic reply object without a `completion` field gives `Error: 'completion'`, the `KeyError`'s text. */
  lemma MissingCompletionKey(
    modelId: string, prompt: string, systemPrompt: string, body: Json,
    service: (string, Payload) -> CallOutcome)
    requires FamilyOf(modelId) == Some(Anthropic)
    requires service(modelId, BuildPayload(modelId, prompt, systemPrompt).value) == Returned(body)
    requires body.JObject? && "completion" !in body.fields
    ensures InvokeBedrockModel(modelId, prompt, systemPrompt, None, service) == ErrorText("Error: 'completion'")
  {
    assert ErrorString(LookupError(Field("completion"))) == "Error: 'completion'";
  }

  /** An AI21 reply with an empty `completions` list gives `Error: list index out of range`. */
  lemma EmptyCompletionsList(
    modelId: string, prompt: string, systemPrompt: string, fields: map<string, Json>,
    service: (string, Payload) -> CallOutcome)
    requires FamilyOf(modelId) == Some(Ai21)
    requires service(modelId, BuildPayload(modelId, prompt, systemPrompt).value) == Returned(JObject(fields))
    requires "completions" in fields && fields["completions"] == JArray([])
    ensures InvokeBedrockModel(modelId, prompt, systemPrompt, None, service)
         == ErrorText("Error: list index out of range")
  {
    EmptyListStopsPath(fields);
    var r := InvokeBedrockModel(modelId, prompt, systemPrompt, None, service);
    assert r == ErrorText(ErrorString(LookupError(Index(0))));
    IndexErrorText();
  }

  lemma IndexErrorText()
    ensures ErrorString(LookupError(Index(0))) == "Error: list index out of range"
  {
  }

  lemma EmptyListStopsPath(fields: map<string, Json>)
    requires "completions" in fields && fields["completions"] == JArray([])
    ensures Follow(JObject(fields), ReplyPath(Ai21)) == Missing(Index(0))
  {
    var path := ReplyPath(Ai21);
    assert Reaches(JObject(fields), path[0]);
    assert NextOr(JObject(fields), path[0]) == JArray([]);
    var rest := path[1..];
    assert rest[0] == Index(0);
    assert !Reaches(JArray([]), rest[0]);
    assert Follow(JArray([]), rest) == Missing(Index(0));
  }
}

=== FILE: graph_data.dfy ===
/**
 * The checks applied to node-link graph data before it is handed to the graph
 * library: an `edges` list is renamed to `links` when `links` is absent, and the
 * upload route then insists on both `nodes` and `links`.  Values are whatever the
 * JSON decoder produced; only the top-level keys matter here.
 */
module GraphData {

  const NodesKey: string := "nodes"
  const LinksKey: string := "links"
  const EdgesKey: string := "edges"

  /** `if 'edges' in data and 'links' not in data: data['links'] = data.pop('edges')`. */
  function NormalizeLinks<V>(data: map<string, V>): (d: map<string, V>)
    ensures LinksKey in d <==> LinksKey in data || EdgesKey in data
    ensures LinksKey in data ==> d == data
    ensures LinksKey !in data && EdgesKey in data ==>
      && d.Keys == data.Keys - {EdgesKey} + {LinksKey}
      && d[LinksKey] == data[EdgesKey]
    ensures forall k :: k in data && k != EdgesKey && k != LinksKey ==> k in d && d[k] == data[k]
    ensures forall k :: k in d && k != LinksKey ==> k in data && d[k] == data[k]
  {
    if EdgesKey in data && LinksKey !in data then (data - {EdgesKey})[LinksKey := data[EdgesKey]]
    else data
  }

  /** Normalising twice is normalising once. */
  lemma NormalizeLinksIdempotent<V>(data: map<string, V>)
    ensures NormalizeLinks(NormalizeLinks(data)) == NormalizeLinks(data)
  {
  }

  /** The request body of `/load_graph`: decoded JSON, or the decoder's error message. */
  datatype Upload<V> = Decoded(data: map<string, V>) | DecodeError(message: string)

  /**
   * The route's answer: the data handed on to the graph library, a 400 error, or
   * the 500 reply of the catch-all handler.
   */
  datatype LoadReply<V> =
    | Loaded(data: map<string, V>)
    | BadRequest(status: nat, error: string)
    | ServerError(status: nat)

  const BadRequestStatus: nat := 400
  const ServerErrorStatus: nat := 500

  /** The message of the `KeyError` raised for missing keys. */
  const MissingKeysMessage: string := "JSON data must contain both 'nodes' and 'links' (or 'edges') keys"

  /**
   * `str()` of that `KeyError`: the repr of its message, which Python quotes with
   * double quotes because the message contains single quotes.
   */
  const MissingKeysError: string := "Missing key in JSON: \"" + MissingKeysMessage + "\""

  /** True iff the key checks pass: `nodes`, and `links` or `edges`. */
  predicate HasKeys<V>(data: map<string, V>) {
    NodesKey in data && (LinksKey in data || EdgesKey in data)
  }

  /**
   * `/load_graph` up to the call of the graph library: the key check and the two
   * `len` calls of the log line before it.  `sized(v)` says whether Python's `len`
   * accepts `v` (strings, lists and objects do; numbers, booleans and `null` raise
   * `TypeError`, which the catch-all turns into a 500 reply).
   */
  function LoadGraphRoute<V>(upload: Upload<V>, sized: V -> bool): (r: LoadReply<V>)
    ensures upload.DecodeError? ==> r == BadRequest(BadRequestStatus, "Invalid JSON: " + upload.message)
    ensures upload.Decoded? ==>
      var data := upload.data;
      var d := NormalizeLinks(data);
      && (r.Loaded? <==> HasKeys(data) && sized(d[NodesKey]) && sized(d[LinksKey]))
      && (r.Loaded? ==> NodesKey in r.data && LinksKey in r.data && r.data == d)
      && (!HasKeys(data) <==> r == BadRequest(BadRequestStatus, MissingKeysError))
      && (r.ServerError? <==> HasKeys(data) && !(sized(d[NodesKey]) && sized(d[LinksKey])))
      && (r.ServerError? ==> r.status == ServerErrorStatus)
  {
    match upload
    case DecodeError(m) => BadRequest(BadRequestStatus, "Invalid JSON: " + m)
    case Decoded(data) =>
      var d := NormalizeLinks(data);
      if NodesKey !in d || LinksKey !in d then BadRequest(BadRequestStatus, MissingKeysError)
      else if !sized(d[NodesKey]) || !sized(d[LinksKey]) then ServerError(ServerErrorStatus)
      else Loaded(d)
  }

  /** A node-link document that already uses `links` passes through untouched, even with an `edges` key. */
  lemma LinksWin<V>(data: map<string, V>, sized: V -> bool)
    requires NodesKey in data && LinksKey in data
    requires sized(data[NodesKey]) && sized(data[LinksKey])
    ensures LoadGraphRoute(Decoded(data), sized) == Loaded(data)
  {
  }

  /** Keys present but `len` refused: `{"nodes": null, "links": []}` gets the 500 reply, not the graph. */
  lemma UnsizedValueFails<V>(data: map<string, V>, sized: V -> bool)
    requires HasKeys(data)
    requires !sized(NormalizeLinks(data)[NodesKey]) || !sized(NormalizeLinks(data)[LinksKey])
    ensures LoadGraphRoute(Decoded(data), sized) == ServerError(ServerErrorStatus)
  {
  }
}

=== FILE: home_page.dfy ===
/**
 * The browser side: `escapeLabel`, which turns the five HTML-special characters
 * into entities, and the Mermaid text `loadAndRenderGraph` builds from the
 * `nodes` and `links` it receives.  A JavaScript `TypeError` (calling `replace`
 * on something that is not a string, reading `label` of a node that is not
 * there) aborts the callback, so nothing is rendered: the builder then yields `None`.
 */
module HomePage {
  import opened Strings
  import opened Values
  import opened Wrappers

  // ---------------------------------------------------------------- escapeLabel

  /** The characters the regular expression `/[&<>'"]/g` matches. */
  predicate Special(c: char) {
    c == '&' || c == '<' || c == '>' || c == '\'' || c == '"'
  }

  function EscapeChar(c: char): (e: string)
    ensures |e| >= 1
    ensures !Special(c) ==> e == [c]
    ensures '<' !in e && '>' !in e && '\'' !in e && '"' !in e
    ensures c != '\n' ==> '\n' !in e
  {
    match c
    case '&' => "&amp;"
    case '<' => "&lt;"
    case '>' => "&gt;"
    case '\'' => "&#39;"
    case '"' => "&quot;"
    case _ => [c]
  }

  /** `escapeLabel(label)` on a string. */
  function EscapeLabel(s: string): (r: string)
    ensures |r| >= |s|
    ensures '<' !in r && '>' !in r && '\'' !in r && '"' !in r
    ensures (forall i :: 0 <= i < |s| ==> !Special(s[i])) ==> r == s
    ensures '\n' !in s ==> '\n' !in r
  {
    if |s| == 0 then []
    else
      var rest := EscapeLabel(s[1..]);
      assert '\n' !in s ==> '\n' !in s[1..] && s[0] != '\n' by {
        assert forall x :: x in s[1..] ==> x in s;
      }
      assert (forall i :: 0 <= i < |s| ==> !Special(s[i])) ==> rest == s[1..] by {
        if forall i :: 0 <= i < |s| ==> !Special(s[i]) {
          assert forall i :: 0 <= i < |s[1..]| ==> s[1..][i] == s[i + 1];
        }
      }
      EscapeChar(s[0]) + rest
  }

  /** The global replace works character by character, so escaping distributes over `+`. */
  lemma {:induction false} EscapeLabelAppend(a: string, b: string)
    ensures EscapeLabel(a + b) == EscapeLabel(a) + EscapeLabel(b)
  {
    if |a| == 0 {
      assert a + b == b;
    } else {
      var ab := a + b;
      assert ab[0] == a[0];
      assert ab[1..] == a[1..] + b;
      EscapeLabelAppend(a[1..], b);
      calc {
        EscapeLabel(ab);
        EscapeChar(a[0]) + EscapeLabel(a[1..] + b);
        EscapeChar(a[0]) + (EscapeLabel(a[1..]) + EscapeLabel(b));
        (EscapeChar(a[0]) + EscapeLabel(a[1..])) + EscapeLabel(b);
      }
    }
  }

  /** Decodes the five entities `escapeLabel` writes; every other character stands for itself. */
  function Unescape(s: string): string
    decreases |s|
  {
    if |s| == 0 then []
    else if s[0] != '&' then [s[0]] + Unescape(s[1..])
    else if StartsWith(s, "&amp;") then "&" + Unescape(s[5..])
    else if StartsWith(s, "&lt;") then "<" + Unescape(s[4..])
    else if StartsWith(s, "&gt;") then ">" + Unescape(s[4..])
    else if StartsWith(s, "&#39;") then "'" + Unescape(s[5..])
    else if StartsWith(s, "&quot;") then "\"" + Unescape(s[6..])
    else [s[0]] + Unescape(s[1..])
  }

  /** `s` does not start with `p` because they differ at position `i`. */
  lemma DiffersAt(s: string, p: string, i: nat)
    requires i < |p| && i < |s| && s[i] != p[i]
    ensures !StartsWith(s, p)
  {
    if |p| <= |s| {
      assert s[..|p|][i] == s[i];
    }
  }

  lemma UnescapeChar(c: char, tail: string)
    ensures Unescape(EscapeChar(c) + tail) == [c] + Unescape(tail)
  {
    var e := EscapeChar(c);
    var s := e + tail;
    assert s[..|e|] == e;
    assert s[|e|..] == tail;
    if c == '&' {
    } else if c == '<' {
      DiffersAt(s, "&amp;", 1);
    } else if c == '>' {
      DiffersAt(s, "&amp;", 1);
      DiffersAt(s, "&lt;", 1);
    } else if c == '\'' {
      DiffersAt(s, "&amp;", 1);
      DiffersAt(s, "&lt;", 1);
      DiffersAt(s, "&gt;", 1);
    } else if c == '"' {
      DiffersAt(s, "&amp;", 1);
      DiffersAt(s, "&lt;", 1);
      DiffersAt(s, "&gt;", 1);
      DiffersAt(s, "&#39;", 1);
    } else {
      assert s[0] == c;
    }
  }

  /** Escaping loses nothing: the entities decode back to the original label. */
  lemma {:induction false} UnescapeEscapeLabel(s: string)
    ensures Unescape(EscapeLabel(s)) == s
  {
    if |s| > 0 {
      UnescapeChar(s[0], EscapeLabel(s[1..]));
      UnescapeEscapeLabel(s[1..]);
      assert s == [s[0]] + s[1..];
    }
  }

  // ---------------------------------------------------------------- loadAndRenderGraph

  /** An entry of `data.nodes`; `labelField` is its `label` property, `None` when absent. */
  datatype JsNode = JsNode(id: Value, labelField: Option<Value>)

  /** An entry of `data.links`; `relation` is `None` when the property is absent. */
  datatype JsLink = JsLink(source: Value, target: Value, relation: Option<Value>)

  /** `nodes.find(n => n.id === id)`: the first node with that id. */
  function Find(nodes: seq<JsNode>, id: Value): (r: Option<JsNode>)
    ensures r.None? <==> forall k :: 0 <= k < |nodes| ==> nodes[k].id != id
    ensures r.Some? ==> r.value.id == id && r.value in nodes
    ensures r.Some? ==> FirstWithId(nodes, id, r.value)
  {
    if |nodes| == 0 then None
    else if nodes[0].id == id then
      assert FirstWithId(nodes, id, nodes[0]);
      Some(nodes[0])
    else
      var r := Find(nodes[1..], id);
      assert forall k :: 1 <= k < |nodes| ==> nodes[k] == nodes[1..][k - 1];
      if r.Some? then FirstWithIdShift(nodes, id, r.value); r else r
  }

  /** `n` is the first node of `nodes` with id `id`. */
  predicate FirstWithId(nodes: seq<JsNode>, id: Value, n: JsNode) {
    exists k :: 0 <= k < |nodes| && nodes[k] == n && forall j :: 0 <= j < k ==> nodes[j].id != id
  }

  lemma FirstWithIdShift(nodes: seq<JsNode>, id: Value, n: JsNode)
    requires |nodes| > 0 && nodes[0].id != id
    requires FirstWithId(nodes[1..], id, n)
    ensures FirstWithId(nodes, id, n)
  {
    var k :| 0 <= k < |nodes[1..]| && nodes[1..][k] == n && forall j :: 0 <= j < k ==> nodes[1..][j].id != id;
    assert nodes[k + 1] == n;
    assert forall j :: 1 <= j < k + 1 ==> nodes[j] == nodes[1..][j - 1];
  }

  /** `node.label || id`. */
  function Shown(node: JsNode, id: Value): Value {
    if node.labelField.Some? && Truthy(node.labelField.value) then node.labelField.value else id
  }

  /** A node without a label, or with an empty one, is shown by its id. */
  lemma LabelFallsBackToId(node: JsNode, id: Value)
    requires node.labelField.None? || !Truthy(node.labelField.value)
    ensures Shown(node, id) == id
  {
  }

  /** `escapeLabel(v)`: only a string has a `replace` method. */
  function Escaped(v: Option<Value>): (r: Option<string>)
    ensures r.Some? <==> v.Some? && v.value.Str?
    ensures r.Some? ==> r.value == EscapeLabel(v.value.s)
  {
    match v
    case Some(Str(s)) => Some(EscapeLabel(s))
    case _ => None
  }

  /** `escapeLabel(nodes.find(n => n.id === id).label || id)`. */
  function NodeLabel(nodes: seq<JsNode>, id: Value): Option<string> {
    match Find(nodes, id)
    case None => None
    case Some(n) => Escaped(Some(Shown(n, id)))
  }

  /** The pieces of one link's line, when none of them throws. */
  datatype LinePieces = LinePieces(source: string, sourceLabel: string, relation: string, target: string, targetLabel: string)

  function Pieces(nodes: seq<JsNode>, link: JsLink): Option<LinePieces> {
    var s := Escaped(Some(link.source));
    var sl := NodeLabel(nodes, link.source);
    var r := Escaped(link.relation);
    var t := Escaped(Some(link.target));
    var tl := NodeLabel(nodes, link.target);
    if s.Some? && sl.Some? && r.Some? && t.Some? && tl.Some? then
      Some(LinePieces(s.value, sl.value, r.value, t.value, tl.value))
    else None
  }

  /** True iff no piece contains `c`. */
  predicate Free(p: LinePieces, c: char) {
    c !in p.source && c !in p.sourceLabel && c !in p.relation && c !in p.target && c !in p.targetLabel
  }

  /** Escaping leaves no double quote in any piece. */
  lemma PiecesUnquoted(nodes: seq<JsNode>, link: JsLink)
    requires Pieces(nodes, link).Some?
    ensures Free(Pieces(nodes, link).value, '"')
  {
  }

  /** True iff `v` is not a string holding a newline. */
  predicate NoNewline(v: Value) {
    v.Str? ==> '\n' !in v.s
  }

  /** True iff no text the link's line is built from holds a newline. */
  predicate OneLine(nodes: seq<JsNode>, link: JsLink) {
    && NoNewline(link.source) && NoNewline(link.target)
    && (link.relation.Some? ==> NoNewline(link.relation.value))
    && forall k :: 0 <= k < |nodes| && nodes[k].labelField.Some? ==> NoNewline(nodes[k].labelField.value)
  }

  /** Escaping adds no newline, so newline-free ids, labels and relations give newline-free pieces. */
  lemma PiecesOneLine(nodes: seq<JsNode>, link: JsLink)
    requires OneLine(nodes, link) && Pieces(nodes, link).Some?
    ensures Free(Pieces(nodes, link).value, '\n')
  {
  }

  const Indent: string := "    "
  const LabelOpen: string := "[\""
  const ArrowAfterLabel: string := "\"] -->|"
  const ArrowClose: string := "| "
  const LabelClose: string := "\"]\n"

  /** `    S["SL"] -->|R| T["TL"]` and a newline. */
  function Line(p: LinePieces): string {
    Indent + p.source + LabelOpen + p.sourceLabel + ArrowAfterLabel + p.relation + ArrowClose
      + p.target + LabelOpen + p.targetLabel + LabelClose
  }

  /** A character absent from the pieces occurs in a line only where the fixed text has it. */
  lemma LineCount(p: LinePieces, c: char)
    requires Free(p, c)
    ensures Count(Line(p), c)
         == Count(Indent, c) + Count(LabelOpen, c) + Count(ArrowAfterLabel, c) + Count(ArrowClose, c)
          + Count(LabelOpen, c) + Count(LabelClose, c)
  {
    CountAbsent(p.source, c);
    CountAbsent(p.sourceLabel, c);
    CountAbsent(p.relation, c);
    CountAbsent(p.target, c);
    CountAbsent(p.targetLabel, c);
    var l1 := Indent + p.source;
    CountAppend(Indent, p.source, c);
    var l2 := l1 + LabelOpen;
    CountAppend(l1, LabelOpen, c);
    var l3 := l2 + p.sourceLabel;
    CountAppend(l2, p.sourceLabel, c);
    var l4 := l3 + ArrowAfterLabel;
    CountAppend(l3, ArrowAfterLabel, c);
    var l5 := l4 + p.relation;
    CountAppend(l4, p.relation, c);
    var l6 := l5 + ArrowClose;
    CountAppend(l5, ArrowClose, c);
    var l7 := l6 + p.target;
    CountAppend(l6, p.target, c);
    var l8 := l7 + LabelOpen;
    CountAppend(l7, LabelOpen, c);
    var l9 := l8 + p.targetLabel;
    CountAppend(l8, p.targetLabel, c);
    CountAppend(l9, LabelClose, c);
  }

  /**
   * The only double quotes in a line are the four around the two labels, so no
   * label can close its quotes early.
   */
  lemma LineQuotes(p: LinePieces)
    requires Free(p, '"')
    ensures Count(Line(p), '"') == 4
  {
    LineCount(p, '"');
    CountAbsent(Indent, '"');
    CountAbsent(ArrowClose, '"');
    assert Count(LabelOpen, '"') == 1;
    assert Count(ArrowAfterLabel, '"') == 1;
    assert Count(LabelClose, '"') == 1;
  }

  /** With newline-free pieces a line holds exactly one newline, its last character. */
  lemma LineNewline(p: LinePieces)
    requires Free(p, '\n')
    ensures Count(Line(p), '\n') == 1
  {
    LineCount(p, '\n');
    CountAbsent(Indent, '\n');
    CountAbsent(ArrowClose, '\n');
    CountAbsent(LabelOpen, '\n');
    CountAbsent(ArrowAfterLabel, '\n');
    assert Count(LabelClose, '\n') == 1;
  }

  /** The line for one link, or `None` when building it throws. */
  function LinkLine(nodes: seq<JsNode>, link: JsLink): Option<string> {
    match Pieces(nodes, link)
    case None => None
    case Some(p) => Some(Line(p))
  }

  /** True iff the link's line can be built: string ids, a string relation, and both endpoints listed. */
  predicate Renderable(nodes: seq<JsNode>, link: JsLink) {
    LinkLine(nodes, link).Some?
  }

  /** The lines `line` produces for `xs`, in order, or `None` as soon as one of them fails. */
  function JoinLines<T>(line: T -> Option<string>, xs: seq<T>): Option<string> {
    if |xs| == 0 then Some([])
    else
      var a := JoinLines(line, xs[..|xs| - 1]);
      var b := line(xs[|xs| - 1]);
      if a.Some? && b.Some? then Some(a.value + b.value) else None
  }

  /** The join fails exactly when one of the lines does. */
  lemma {:induction false} JoinLinesSome<T>(line: T -> Option<string>, xs: seq<T>)
    ensures JoinLines(line, xs).Some? <==> forall k :: 0 <= k < |xs| ==> line(xs[k]).Some?
  {
    if |xs| > 0 {
      var init := xs[..|xs| - 1];
      JoinLinesSome(line, init);
      assert forall k :: 0 <= k < |init| ==> init[k] == xs[k];
    }
  }

  /** Joining a concatenation is concatenating the joins. */
  lemma {:induction false} JoinLinesAppend<T>(line: T -> Option<string>, a: seq<T>, b: seq<T>)
    requires JoinLines(line, a + b).Some?
    ensures JoinLines(line, a).Some? && JoinLines(line, b).Some?
    ensures JoinLines(line, a + b).value == JoinLines(line, a).value + JoinLines(line, b).value
    decreases |b|
  {
    if |b| == 0 {
      assert a + b == a;
    } else {
      var b' := b[..|b| - 1];
      assert (a + b)[..|a + b| - 1] == a + b';
      assert (a + b)[|a + b| - 1] == b[|b| - 1];
      JoinLinesAppend(line, a, b');
    }
  }

  /** Joining one more item appends its line, and fails exactly when either part does. */
  lemma JoinLinesSnoc<T>(line: T -> Option<string>, xs: seq<T>, x: T)
    ensures JoinLines(line, xs + [x]).Some? <==> JoinLines(line, xs).Some? && line(x).Some?
    ensures JoinLines(line, xs + [x]).Some? ==>
      JoinLines(line, xs + [x]).value == JoinLines(line, xs).value + line(x).value
  {
    assert (xs + [x])[..|xs|] == xs;
  }

  /** The line builder for the links of one graph. */
  function LineOf(nodes: seq<JsNode>): JsLink -> Option<string> {
    link => LinkLine(nodes, link)
  }

  /** Each joined link line carries its four quotes. */
  lemma {:induction false} JoinedQuotes(nodes: seq<JsNode>, links: seq<JsLink>)
    ensures JoinLines(LineOf(nodes), links).Some? ==>
      Count(JoinLines(LineOf(nodes), links).value, '"') == 4 * |links|
  {
    if |links| > 0 && JoinLines(LineOf(nodes), links).Some? {
      var init := links[..|links| - 1];
      var last := links[|links| - 1];
      JoinedQuotes(nodes, init);
      PiecesUnquoted(nodes, last);
      LineQuotes(Pieces(nodes, last).value);
      CountAppend(JoinLines(LineOf(nodes), init).value, LinkLine(nodes, last).value, '"');
    }
  }

  /** The lines of `links.forEach(…)`, in link order, or `None` when one of them throws. */
  function LinkLines(nodes: seq<JsNode>, links: seq<JsLink>): (r: Option<string>)
    ensures r.Some? <==> forall k :: 0 <= k < |links| ==> Renderable(nodes, links[k])
    ensures r.Some? ==> Count(r.value, '"') == 4 * |links|
  {
    JoinLinesSome(LineOf(nodes), links);
    var r := JoinLines(LineOf(nodes), links);
    JoinedQuotes(nodes, links);
    r
  }

  /** One more link adds exactly its own line, after the lines of the links before it. */
  lemma LinkLinesSnoc(nodes: seq<JsNode>, links: seq<JsLink>, link: JsLink)
    ensures LinkLines(nodes, links + [link]).Some? <==> LinkLines(nodes, links).Some? && LinkLine(nodes, link).Some?
    ensures LinkLines(nodes, links + [link]).Some? ==>
      LinkLines(nodes, links + [link]).value == LinkLines(nodes, links).value + LinkLine(nodes, link).value
  {
    JoinLinesSnoc(LineOf(nodes), links, link);
  }

  /** With newline-free ids, labels and relations, each joined link line carries exactly one newline. */
  lemma {:induction false} JoinedNewlines(nodes: seq<JsNode>, links: seq<JsLink>)
    requires forall k :: 0 <= k < |links| ==> OneLine(nodes, links[k])
    ensures JoinLines(LineOf(nodes), links).Some? ==>
      Count(JoinLines(LineOf(nodes), links).value, '\n') == |links|
  {
    if |links| > 0 && JoinLines(LineOf(nodes), links).Some? {
      var init := links[..|links| - 1];
      var last := links[|links| - 1];
      assert forall k :: 0 <= k < |init| ==> init[k] == links[k];
      JoinedNewlines(nodes, init);
      PiecesOneLine(nodes, last);
      LineNewline(Pieces(nodes, last).value);
      CountAppend(JoinLines(LineOf(nodes), init).value, LinkLine(nodes, last).value, '\n');
    }
  }

  const MermaidHeader: string := "graph TD\n"

  /** The text `loadAndRenderGraph` puts into the page, or `None` when the callback throws. */
  function MermaidCode(nodes: seq<JsNode>, links: seq<JsLink>): (r: Option<string>)
    ensures r.Some? <==> forall k :: 0 <= k < |links| ==> Renderable(nodes, links[k])
    ensures r.Some? ==> StartsWith(r.value, "graph TD\n") && Count(r.value, '"') == 4 * |links|
  {
    match LinkLines(nodes, links)
    case None => None
    case Some(body) =>
      CountAppend(MermaidHeader, body, '"');
      assert Count(MermaidHeader, '"') == 0;
      Some(MermaidHeader + body)
  }

  /** The page text is the header line followed by exactly one line per link. */
  lemma MermaidCodeLines(nodes: seq<JsNode>, links: seq<JsLink>)
    requires forall k :: 0 <= k < |links| ==> OneLine(nodes, links[k])
    ensures MermaidCode(nodes, links).Some? ==> Count(MermaidCode(nodes, links).value, '\n') == |links| + 1
  {
    if MermaidCode(nodes, links).Some? {
      JoinedNewlines(nodes, links);
      CountAppend(MermaidHeader, LinkLines(nodes, links).value, '\n');
      assert Count(MermaidHeader, '\n') == 1;
    }
  }
}

=== FILE: knowledge_base.dfy ===
/**
 * `query_knowledge_base`: one retrieval request per attempt, exponential backoff on
 * throttling and on unexpected exceptions, immediate give-up on any other AWS client
 * error, and a parser that turns each retrieved passage into a
 * (source, relation, target) record tagged with its position.
 *
 * Delays are whole milliseconds: `base_delay = 1.0` seconds is `1000`.
 */
module KnowledgeBase {
  import opened Split
  import opened Retry

  /** The AWS error codes that count as throttling and are retried. */
  const ThrottleCodes: set<string> := {"ThrottlingException", "RequestLimitExceeded"}

  /** Only this many records are returned, whatever `max_results` asked the service for. */
  const TopResults: nat := 5

  const DefaultMaxRetries: int := 3
  const DefaultBaseDelayMs: nat := 1000

  /** How one call to the retrieval service ended. */
  datatype KbAttempt =
    | Retrieved(contents: seq<string>)  // the `content` of each entry of `retrievalResults`
    | ClientError(code: string)         // botocore `ClientError` with this error code
    | OtherError                        // any other exception raised inside the attempt

  /** `KnowledgeBaseResult`. */
  datatype KbRecord = KbRecord(relation: string, source: string, target: string, key: nat)

  // ---------------------------------------------------------------- parsing

  /** True iff the passage splits into at least three tokens. */
  predicate HasTriple(content: string) {
    |Tokens(content)| >= 3
  }

  /** `rec` holds tokens 0, 1 and 2 of `content` as source, relation and target. */
  predicate Describes(rec: KbRecord, content: string) {
    var t := Tokens(content);
    |t| >= 3 && rec.source == t[0] && rec.relation == t[1] && rec.target == t[2]
  }

  /** The keys of `rs` are strictly increasing. */
  predicate KeysIncrease(rs: seq<KbRecord>) {
    forall k, l :: 0 <= k < l < |rs| ==> rs[k].key < rs[l].key
  }

  /** True iff some record of `rs` carries key `j`. */
  predicate HasKey(rs: seq<KbRecord>, j: nat) {
    exists k :: 0 <= k < |rs| && rs[k].key == j
  }

  /** The records for passages `i` onwards, before the top-5 cut. */
  function RecordsFrom(contents: seq<string>, i: nat): (rs: seq<KbRecord>)
    requires i <= |contents|
    decreases |contents| - i
    ensures forall k :: 0 <= k < |rs| ==> i <= rs[k].key < |contents| && Describes(rs[k], contents[rs[k].key])
    ensures KeysIncrease(rs)
    ensures forall j :: i <= j < |contents| ==> (HasKey(rs, j) <==> HasTriple(contents[j]))
  {
    if i == |contents| then []
    else
      var rest := RecordsFrom(contents, i + 1);
      var t := Tokens(contents[i]);
      if |t| >= 3 then
        var r := KbRecord(t[1], t[0], t[2], i);
        KeptPassage(contents, i, r, rest);
        [r] + rest
      else
        SkippedPassage(contents, i, rest);
        rest
  }

  /** Putting the record of passage `i` before the records of the later passages keeps the invariant. */
  lemma KeptPassage(contents: seq<string>, i: nat, r: KbRecord, rest: seq<KbRecord>)
    requires i < |contents| && r.key == i && Describes(r, contents[i])
    requires forall k :: 0 <= k < |rest| ==> i + 1 <= rest[k].key < |contents| && Describes(rest[k], contents[rest[k].key])
    requires KeysIncrease(rest)
    requires forall j :: i + 1 <= j < |contents| ==> (HasKey(rest, j) <==> HasTriple(contents[j]))
    ensures var rs := [r] + rest;
      && (forall k :: 0 <= k < |rs| ==> i <= rs[k].key < |contents| && Describes(rs[k], contents[rs[k].key]))
      && KeysIncrease(rs)
      && (forall j :: i <= j < |contents| ==> (HasKey(rs, j) <==> HasTriple(contents[j])))
  {
    var rs := [r] + rest;
    assert forall k :: 1 <= k < |rs| ==> rs[k] == rest[k - 1];
    forall j | i <= j < |contents| ensures HasKey(rs, j) <==> HasTriple(contents[j]) {
      HasKeyCons(r, rest, j);
    }
  }

  /** A passage without a triple adds nothing; the later records already satisfy the invariant from `i`. */
  lemma SkippedPassage(contents: seq<string>, i: nat, rest: seq<KbRecord>)
    requires i < |contents| && !HasTriple(contents[i])
    requires forall k :: 0 <= k < |rest| ==> i + 1 <= rest[k].key < |contents| && Describes(rest[k], contents[rest[k].key])
    requires forall j :: i + 1 <= j < |contents| ==> (HasKey(rest, j) <==> HasTriple(contents[j]))
    ensures forall j :: i <= j < |contents| ==> (HasKey(rest, j) <==> HasTriple(contents[j]))
  {
    assert !HasKey(rest, i);
  }

  lemma HasKeyCons(r: KbRecord, rest: seq<KbRecord>, j: nat)
    ensures HasKey([r] + rest, j) <==> (r.key == j || HasKey(rest, j))
  {
    var rs := [r] + rest;
    assert rs[0] == r;
    if HasKey(rest, j) {
      var k :| 0 <= k < |rest| && rest[k].key == j;
      assert rs[k + 1] == rest[k];
    }
    if HasKey(rs, j) && r.key != j {
      var k :| 0 <= k < |rs| && rs[k].key == j;
      assert k > 0;
      assert rest[k - 1] == rs[k];
    }
  }

  /** The loop body's parse of one successful response: `results[:5]`. */
  function ParseResults(contents: seq<string>): (rs: seq<KbRecord>)
    ensures |rs| <= TopResults
    ensures forall k :: 0 <= k < |rs| ==> rs[k].key < |contents| && Describes(rs[k], contents[rs[k].key])
    ensures KeysIncrease(rs)
    ensures forall j :: 0 <= j < |contents| && HasKey(rs, j) ==> HasTriple(contents[j])
    ensures forall j :: (0 <= j < |contents| && HasTriple(contents[j])
                         && (|rs| < TopResults || j < rs[|rs| - 1].key)) ==> HasKey(rs, j)
  {
    var all := RecordsFrom(contents, 0);
    var n := if |all| <= TopResults then |all| else TopResults;
    PrefixKeys(all, n);
    all[..n]
  }

  /** The keys a prefix of `all` holds are those of `all` up to its last key. */
  lemma PrefixKeys(all: seq<KbRecord>, n: nat)
    requires n <= |all|
    requires KeysIncrease(all)
    ensures forall j: nat :: HasKey(all[..n], j) ==> HasKey(all, j)
    ensures forall j: nat :: HasKey(all, j) && (n == |all| || (0 < n && j < all[n - 1].key)) ==> HasKey(all[..n], j)
  {
    var p := all[..n];
    forall j: nat | HasKey(p, j) ensures HasKey(all, j) {
      var k :| 0 <= k < |p| && p[k].key == j;
      assert all[k].key == j;
    }
    forall j: nat | HasKey(all, j) && (n == |all| || (0 < n && j < all[n - 1].key)) ensures HasKey(p, j) {
      var k :| 0 <= k < |all| && all[k].key == j;
      assert p[k].key == j;
    }
  }

  // ---------------------------------------------------------------- retry loop

  /** True iff the attempt is retried while attempts remain. */
  predicate Retryable(a: KbAttempt) {
    a.OtherError? || (a.ClientError? && a.code in ThrottleCodes)
  }

  /** The loop's reaction to one attempt's outcome. */
  function Classify(a: KbAttempt): (s: Step<seq<KbRecord>>)
    ensures s.Transient? <==> Retryable(a)
    ensures s.Fatal? <==> a.ClientError? && a.code !in ThrottleCodes
    ensures s.Succeeded? <==> a.Retrieved?
    ensures a.Retrieved? ==> s == Succeeded(ParseResults(a.contents))
  {
    match a
    case Retrieved(contents) => Succeeded(ParseResults(contents))
    case ClientError(code) => if code in ThrottleCodes then Transient else Fatal
    case OtherError => Transient
  }

  function Pow2(n: nat): (p: nat)
    ensures p >= 1
  {
    if n == 0 then 1 else 2 * Pow2(n - 1)
  }

  /** The sleep before retrying after attempt `k`: `base_delay * 2 ** k`. */
  function Backoff(baseDelay: nat): nat -> nat {
    k => baseDelay * Pow2(k)
  }

  /**
   * `query_knowledge_base(query, max_results, max_retries, base_delay)`, with
   * `script[k]` the outcome of attempt `k`.
   */
  function QueryKnowledgeBase(script: seq<KbAttempt>, maxRetries: int, baseDelay: nat)
    : (r: Run<seq<KbRecord>>)
    requires maxRetries <= |script|
    ensures maxRetries <= 0 ==> r == Run([], 0, [])
    ensures maxRetries > 0 ==> 1 <= r.calls <= maxRetries && |r.sleeps| == r.calls - 1
    ensures forall j :: 0 <= j < |r.sleeps| ==> r.sleeps[j] == baseDelay * Pow2(j)
    ensures |r.result| <= TopResults
  {
    var steps := Steps(script, Classify);
    var r := Execute(steps, maxRetries, Backoff(baseDelay), []);
    ResultIsValueOrFallback(steps, maxRetries, Backoff(baseDelay), []);
    r
  }

  /** True iff attempts `0 .. k - 1` all failed retryably. */
  predicate RetriedUpTo(script: seq<KbAttempt>, k: nat)
    requires k <= |script|
  {
    forall j :: 0 <= j < k ==> Retryable(script[j])
  }

  lemma StepsRetriedUpTo(script: seq<KbAttempt>, k: nat)
    requires k <= |script|
    requires RetriedUpTo(script, k)
    ensures AllTransient(Steps(script, Classify), 0, k)
  {
  }

  /** The first successful retrieval is parsed and returned; nothing is tried after it. */
  lemma SuccessStops(script: seq<KbAttempt>, maxRetries: int, baseDelay: nat, k: nat)
    requires maxRetries <= |script|
    requires k < maxRetries
    requires RetriedUpTo(script, k)
    requires script[k].Retrieved?
    ensures QueryKnowledgeBase(script, maxRetries, baseDelay)
         == Run(ParseResults(script[k].contents), k + 1, Trace(Backoff(baseDelay), k))
  {
    StepsRetriedUpTo(script, k);
    FirstNonTransientStops(Steps(script, Classify), maxRetries, Backoff(baseDelay), [], k);
  }

  /**
   * A client error that is not throttling ends the query with no records and no
   * further sleep, however many attempts remain.
   */
  lemma NonThrottleErrorStops(script: seq<KbAttempt>, maxRetries: int, baseDelay: nat, k: nat)
    requires maxRetries <= |script|
    requires k < maxRetries
    requires RetriedUpTo(script, k)
    requires script[k].ClientError? && script[k].code !in ThrottleCodes
    ensures QueryKnowledgeBase(script, maxRetries, baseDelay) == Run([], k + 1, Trace(Backoff(baseDelay), k))
  {
    StepsRetriedUpTo(script, k);
    FirstNonTransientStops(Steps(script, Classify), maxRetries, Backoff(baseDelay), [], k);
  }

  /**
   * If every attempt is throttled or raises, all `max_retries` attempts run, the
   * sleeps are `base_delay * [1, 2, …, 2 ** (max_retries - 2)]`, and the result is
   * empty: the last attempt's error is not followed by a sleep.
   */
  lemma RetryableExhausts(script: seq<KbAttempt>, maxRetries: int, baseDelay: nat)
    requires 0 < maxRetries <= |script|
    requires RetriedUpTo(script, maxRetries)
    ensures QueryKnowledgeBase(script, maxRetries, baseDelay)
         == Run([], maxRetries, Trace(Backoff(baseDelay), maxRetries - 1))
  {
    StepsRetriedUpTo(script, maxRetries);
    AllTransientExhausts(Steps(script, Classify), maxRetries, Backoff(baseDelay), []);
  }

  function Sum(s: seq<nat>): nat {
    if |s| == 0 then 0 else Sum(s[..|s| - 1]) + s[|s| - 1]
  }

  /** Each sleep of the backoff trace is longer than the one before when `base_delay > 0`. */
  lemma BackoffIncreasing(baseDelay: nat, n: nat)
    requires baseDelay > 0
    ensures var t := Trace(Backoff(baseDelay), n);
      forall j, l :: 0 <= j < l < n ==> t[j] < t[l]
  {
    var t := Trace(Backoff(baseDelay), n);
    forall j, l | 0 <= j < l < n ensures t[j] < t[l] {
      Pow2Increasing(j, l);
      MulStrict(baseDelay, Pow2(j), Pow2(l));
    }
  }

  lemma MulStrict(a: nat, x: nat, y: nat)
    requires a > 0 && x < y
    ensures a * x < a * y
  {
  }

  lemma {:induction false} Pow2Increasing(j: nat, l: nat)
    requires j < l
    ensures Pow2(j) < Pow2(l)
    decreases l
  {
    if j < l - 1 {
      Pow2Increasing(j, l - 1);
    }
  }

  /** The sleeps of `n` backoff steps add up to `base_delay * (2 ** n - 1)`. */
  lemma {:induction false} BackoffTotal(baseDelay: nat, n: nat)
    ensures Sum(Trace(Backoff(baseDelay), n)) == baseDelay * (Pow2(n) - 1)
  {
    if n > 0 {
      var t := Trace(Backoff(baseDelay), n);
      assert t[..n - 1] == Trace(Backoff(baseDelay), n - 1);
      BackoffTotal(baseDelay, n - 1);
      calc {
        Sum(t);
        baseDelay * (Pow2(n - 1) - 1) + baseDelay * Pow2(n - 1);
        baseDelay * (2 * Pow2(n - 1) - 1);
      }
    }
  }

  /**
   * The defaults (`max_retries = 3`, `base_delay = 1.0`) with every attempt
   * throttled: three calls, sleeps of 1 s and 2 s, no records.
   */
  lemma DefaultPolicyAlwaysThrottled()
    ensures var script := seq(3, _ => ClientError("ThrottlingException"));
      QueryKnowledgeBase(script, DefaultMaxRetries, DefaultBaseDelayMs) == Run([], 3, [1000, 2000])
  {
    var script := seq(3, _ => ClientError("ThrottlingException"));
    RetryableExhausts(script, DefaultMaxRetries, DefaultBaseDelayMs);
    assert Trace(Backoff(DefaultBaseDelayMs), 2) == [1000, 2000];
  }
}

=== FILE: knowledge_graph.dfy ===
/**
 * The pure parts of `NeurosymbolicKnowledgeGraph`: the attribute map `add_node`
 * stores, the attribute map the `/add_edge` route stores, the message `query`
 * gives for an unknown node, and the Mermaid text `export_to_mermaid` builds
 * (the same code appears in both the command-line and the web version).
 */
module KnowledgeGraph {
  import opened Strings
  import opened Values
  import opened Wrappers

  type Attributes = map<string, Value>

  /** Node ids with their attribute maps. */
  datatype Graph = Graph(nodes: map<string, Attributes>)

  // ---------------------------------------------------------------- add_node

  const LifetimeKey: string := "lifetime"

  /**
   * The attribute map `add_node(node, attributes, lifetime)` passes on:
   * `attributes or {}`, plus `lifetime` under its own key when it is truthy.
   */
  function NodeAttributes(attributes: Option<Attributes>, lifetime: Value): (a: Attributes)
    ensures var given := if attributes.Some? then attributes.value else map[];
      && (Truthy(lifetime) ==> a.Keys == given.Keys + {LifetimeKey} && a[LifetimeKey] == lifetime)
      && (!Truthy(lifetime) ==> a == given)
      && forall k :: k in given && k != LifetimeKey ==> k in a && a[k] == given[k]
  {
    var given := match attributes case Some(m) => m case None => map[];
    if Truthy(lifetime) then given[LifetimeKey := lifetime] else given
  }

  /** Passing the stored map back in with the same lifetime stores the same map. */
  lemma NodeAttributesIdempotent(attributes: Option<Attributes>, lifetime: Value)
    ensures NodeAttributes(Some(NodeAttributes(attributes, lifetime)), lifetime)
         == NodeAttributes(attributes, lifetime)
  {
  }

  /**
   * `add_node`: the graph library adds the node if it is new and otherwise merges
   * the new attributes over the ones it already has.
   */
  function AddNode(g: Graph, node: string, attributes: Option<Attributes>, lifetime: Value): (g': Graph)
    ensures g'.nodes.Keys == g.nodes.Keys + {node}
    ensures forall n :: n in g.nodes && n != node ==> g'.nodes[n] == g.nodes[n]
    ensures forall k :: k in NodeAttributes(attributes, lifetime) ==>
      k in g'.nodes[node] && g'.nodes[node][k] == NodeAttributes(attributes, lifetime)[k]
    ensures node !in g.nodes ==> g'.nodes[node] == NodeAttributes(attributes, lifetime)
    ensures node in g.nodes ==>
      && g'.nodes[node].Keys == g.nodes[node].Keys + NodeAttributes(attributes, lifetime).Keys
      && forall k :: k in g.nodes[node] && k !in NodeAttributes(attributes, lifetime) ==>
           g'.nodes[node][k] == g.nodes[node][k]
  {
    var existing := if node in g.nodes then g.nodes[node] else map[];
    Graph(g.nodes[node := existing + NodeAttributes(attributes, lifetime)])
  }

  // ---------------------------------------------------------------- /add_edge

  const RelationKey: string := "relation"

  /**
   * The attribute map the `/add_edge` route stores: always exactly `relation`,
   * `null` when the request body has none.
   */
  function RouteEdgeAttributes(request: map<string, Value>): (a: Attributes)
    ensures a.Keys == {RelationKey}
    ensures RelationKey in request ==> a[RelationKey] == request[RelationKey]
    ensures RelationKey !in request ==> a[RelationKey] == Null
  {
    map[RelationKey := if RelationKey in request then request[RelationKey] else Null]
  }

  // ---------------------------------------------------------------- query

  /** `query`'s reply; the report for a known node is built from Python reprs and not modelled. */
  datatype QueryReply = NotFound(text: string) | Report

  const NotFoundLead: string := "Node '"
  const NotFoundTail: string := "' not found in the graph."

  function Query(g: Graph, node: string): (r: QueryReply)
    ensures r.NotFound? <==> node !in g.nodes
  {
    if node !in g.nodes then NotFound(NotFoundLead + node + NotFoundTail) else Report
  }

  /** The node named in a not-found message. */
  function NamedNode(text: string): string {
    if |NotFoundLead| + |NotFoundTail| <= |text| then text[|NotFoundLead| .. |text| - |NotFoundTail|] else []
  }

  /** The not-found message is `Node '<x>' not found in the graph.` and names the node asked for. */
  lemma NotFoundNamesNode(g: Graph, node: string)
    requires node !in g.nodes
    ensures Query(g, node) == NotFound("Node '" + node + "' not found in the graph.")
    ensures NamedNode(Query(g, node).text) == node
  {
  }

  /** After `add_node`, querying the node no longer reports it missing. */
  lemma AddedNodeIsFound(g: Graph, node: string, attributes: Option<Attributes>, lifetime: Value)
    ensures Query(AddNode(g, node, attributes, lifetime), node) == Report
  {
  }

  // ---------------------------------------------------------------- export_to_mermaid

  /** An edge as the graph library reports it: endpoints and attribute map. */
  datatype Edge = Edge(source: string, target: string, attributes: Attributes)

  const MermaidHeader: string := "graph TD\n"

  /** A node id as written into the diagram: spaces become underscores. */
  function NodeToken(id: string): (t: string)
    ensures |t| == |id| && ' ' !in t
    ensures forall i :: 0 <= i < |id| && id[i] == ' ' ==> t[i] == '_'
    ensures forall i :: 0 <= i < |id| && id[i] != ' ' ==> t[i] == id[i]
  {
    ReplaceChar(id, ' ', '_')
  }

  /** `edge[2].get('relation', '')` as the f-string prints it. */
  function RelationLabel(attributes: Attributes): string {
    if RelationKey in attributes then PyStr(attributes[RelationKey]) else ""
  }

  /** An edge without `relation` gets an empty label: `S -->|| T`. */
  lemma EdgeWithoutRelation(e: Edge)
    requires RelationKey !in e.attributes
    ensures EdgeLine(e) == "    " + NodeToken(e.source) + " -->|| " + NodeToken(e.target) + "\n"
  {
  }

  /**
   * The `/add_edge` route stores `relation: null` when the request has none, and the
   * f-string prints that as `None`, so such an edge is labelled `None`, not left blank.
   */
  lemma RouteEdgeWithoutRelation(request: map<string, Value>, source: string, target: string)
    requires RelationKey !in request
    ensures RelationLabel(RouteEdgeAttributes(request)) == "None"
    ensures EdgeLine(Edge(source, target, RouteEdgeAttributes(request)))
         == "    " + NodeToken(source) + " -->|None| " + NodeToken(target) + "\n"
  {
  }

  const Indent: string := "    "
  const ArrowOpen: string := " -->|"
  const ArrowClose: string := "| "

  function EdgeLine(e: Edge): string {
    Indent + NodeToken(e.source) + ArrowOpen + RelationLabel(e.attributes) + ArrowClose + NodeToken(e.target) + "\n"
  }

  /** The lines for `edges`, in order. */
  function EdgeLines(edges: seq<Edge>): string {
    ConcatMap(EdgeLine, edges)
  }

  /** `export_to_mermaid`: the header, then one `+=` per edge. */
  method ExportToMermaid(edges: seq<Edge>) returns (out: string)
    ensures out == MermaidHeader + EdgeLines(edges)
    ensures StartsWith(out, "graph TD\n")
  {
    out := AppendEach(MermaidHeader, EdgeLine, edges);
    HeaderLeads(EdgeLines(edges));
  }

  lemma HeaderLeads(rest: string)
    ensures StartsWith(MermaidHeader + rest, "graph TD\n")
  {
    assert (MermaidHeader + rest)[..|MermaidHeader|] == MermaidHeader;
  }

  /** Exporting a concatenation of edge lists concatenates their lines. */
  lemma EdgeLinesAppend(a: seq<Edge>, b: seq<Edge>)
    ensures EdgeLines(a + b) == EdgeLines(a) + EdgeLines(b)
  {
    ConcatMapAppend(EdgeLine, a, b);
  }

  /** True iff the edge's endpoints and label hold no newline. */
  predicate SingleLine(e: Edge) {
    '\n' !in e.source && '\n' !in e.target && '\n' !in RelationLabel(e.attributes)
  }

  /** With no newline inside ids and labels the text has exactly one line per edge after the header. */
  lemma {:induction false} OneLinePerEdge(edges: seq<Edge>)
    requires forall k :: 0 <= k < |edges| ==> SingleLine(edges[k])
    ensures Count(MermaidHeader + EdgeLines(edges), '\n') == |edges| + 1
  {
    CountAppend(MermaidHeader, EdgeLines(edges), '\n');
    assert Count(MermaidHeader, '\n') == 1;
    LinesCount(edges);
  }

  lemma {:induction false} LinesCount(edges: seq<Edge>)
    requires forall k :: 0 <= k < |edges| ==> SingleLine(edges[k])
    ensures Count(EdgeLines(edges), '\n') == |edges|
  {
    if |edges| > 0 {
      var e := edges[|edges| - 1];
      LinesCount(edges[..|edges| - 1]);
      CountAppend(EdgeLines(edges[..|edges| - 1]), EdgeLine(e), '\n');
      LineCount(e);
    }
  }

  lemma LineCount(e: Edge)
    requires SingleLine(e)
    ensures Count(EdgeLine(e), '\n') == 1
  {
    var s := NodeToken(e.source);
    var t := NodeToken(e.target);
    var r := RelationLabel(e.attributes);
    assert '\n' !in s && '\n' !in t by {
      assert forall i :: 0 <= i < |s| ==> s[i] != '\n';
      assert forall i :: 0 <= i < |t| ==> t[i] != '\n';
    }
    CountAbsent(Indent, '\n');
    CountAbsent(s, '\n');
    CountAbsent(ArrowOpen, '\n');
    CountAbsent(r, '\n');
    CountAbsent(ArrowClose, '\n');
    CountAbsent(t, '\n');
    CountAppend(Indent, s, '\n');
    CountAppend(Indent + s, ArrowOpen, '\n');
    CountAppend(Indent + s + ArrowOpen, r, '\n');
    CountAppend(Indent + s + ArrowOpen + r, ArrowClose, '\n');
    CountAppend(Indent + s + ArrowOpen + r + ArrowClose, t, '\n');
    CountAppend(Indent + s + ArrowOpen + r + ArrowClose + t, "\n", '\n');
  }

  // ---------------------------------------------------------------- reading a line back

  /** The part of `s` before the first `c` (all of `s` when there is none). */
  function UpTo(s: string, c: char): (p: string)
    ensures |p| <= |s| && p == s[..|p|] && c !in p
  {
    if |s| == 0 || s[0] == c then [] else [s[0]] + UpTo(s[1..], c)
  }

  lemma {:induction false} UpToStops(a: string, b: string, c: char)
    requires c !in a
    requires |b| > 0 && b[0] == c
    ensures UpTo(a + b, c) == a
  {
    if |a| > 0 {
      assert (a + b)[1..] == a[1..] + b;
      UpToStops(a[1..], b, c);
      assert a == [a[0]] + a[1..];
    } else {
      assert a + b == b;
    }
  }

  /**
   * Splits `s` at the first occurrence of `sep[0]`, provided the whole separator
   * `sep` stands there: the part before it and the part after it.
   */
  function Cut(s: string, sep: string): Option<(string, string)>
    requires |sep| > 0
  {
    var p := UpTo(s, sep[0]);
    if |p| + |sep| <= |s| && s[|p| .. |p| + |sep|] == sep then Some((p, s[|p| + |sep|..])) else None
  }

  lemma CutAt(x: string, sep: string, rest: string)
    requires |sep| > 0 && sep[0] !in x
    ensures Cut(x + sep + rest, sep) == Some((x, rest))
  {
    var s := x + sep + rest;
    assert s == x + (sep + rest);
    UpToStops(x, sep + rest, sep[0]);
    assert s[|x| .. |x| + |sep|] == sep;
    assert s[|x| + |sep|..] == rest;
  }

  /** What a diagram line says: source token, label and target token. */
  datatype Arrow = Arrow(source: string, relation: string, target: string)

  /** Reads a line of the `    S -->|R| T\n` form back into its parts. */
  function ParseEdgeLine(line: string): Option<Arrow> {
    if |line| < |Indent| + 1 || line[..|Indent|] != Indent || line[|line| - 1] != '\n' then None
    else
      match Cut(line[|Indent| .. |line| - 1], ArrowOpen)
      case None => None
      case Some((source, more)) =>
        match Cut(more, ArrowClose)
        case None => None
        case Some((relation, target)) => Some(Arrow(source, relation, target))
  }

  /**
   * Every line names its edge unambiguously: as long as the label holds no `|`,
   * the line reads back as the edge's source token, label and target token.
   */
  lemma ParseEdgeLineRoundTrip(e: Edge)
    requires '|' !in RelationLabel(e.attributes)
    ensures ParseEdgeLine(EdgeLine(e)) == Some(Arrow(NodeToken(e.source), RelationLabel(e.attributes), NodeToken(e.target)))
  {
    ParseLine(NodeToken(e.source), RelationLabel(e.attributes), NodeToken(e.target));
  }

  lemma ParseLine(s: string, r: string, t: string)
    requires ' ' !in s && '|' !in r
    ensures ParseEdgeLine(Indent + s + ArrowOpen + r + ArrowClose + t + "\n") == Some(Arrow(s, r, t))
  {
    var line := Indent + s + ArrowOpen + r + ArrowClose + t + "\n";
    var inner := s + ArrowOpen + (r + ArrowClose + t);
    assert line == Indent + inner + "\n";
    assert line[|Indent| .. |line| - 1] == inner;
    assert line[..|Indent|] == Indent;
    CutAt(s, ArrowOpen, r + ArrowClose + t);
    CutAt(r, ArrowClose, t);
  }
}

=== FILE: ollama.dfy ===
/**
 * `get_ollama_models`: up to `max_retries` GET requests to the local `/tags`
 * endpoint, a constant `retry_delay` (whole seconds) between attempts, and the
 * `name` of every listed model on the first status-200 reply.
 */
module Ollama {
  import opened Wrappers
  import opened Retry

  const DefaultMaxRetries: int := 3
  const DefaultRetryDelay: nat := 5

  /** One entry of the reply's `models` list; `name` is `None` when that key is absent. */
  datatype ModelEntry = ModelEntry(name: Option<string>)

  /** An HTTP reply from `/tags`; `models` is `None` when the JSON body has no such key. */
  datatype TagsReply = TagsReply(status: int, models: Option<seq<ModelEntry>>)

  /** How one request ended. */
  datatype OllamaAttempt =
    | Replied(reply: TagsReply)
    | RequestFailed          // `requests.RequestException`

  /**
   * What the function hands back: the model names, or the `KeyError` that escapes
   * when a listed model has no `name` (nothing in the function catches it).
   */
  datatype Listing = Names(names: seq<string>) | MissingName

  /** `[model["name"] for model in models]`. */
  function ModelNames(models: seq<ModelEntry>): (l: Listing)
    ensures l.Names? <==> forall k :: 0 <= k < |models| ==> models[k].name.Some?
    ensures l.Names? ==>
      |l.names| == |models| && forall k :: 0 <= k < |models| ==> l.names[k] == models[k].name.value
  {
    if |models| == 0 then Names([])
    else
      match (models[0].name, ModelNames(models[1..]))
      case (Some(n), Names(rest)) =>
        assert forall k :: 1 <= k < |models| ==> models[k] == models[1..][k - 1];
        Names([n] + rest)
      case (None, _) => MissingName
      case (_, MissingName) =>
        assert exists k :: 1 <= k < |models| && models[k].name.None? by {
          var k :| 0 <= k < |models[1..]| && models[1..][k].name.None?;
          assert models[k + 1] == models[1..][k];
        }
        MissingName
  }

  /** The names listed by a status-200 reply, or `[]` when it has no `models` key. */
  function Listed(reply: TagsReply): Listing {
    match reply.models case Some(models) => ModelNames(models) case None => Names([])
  }

  /** The loop's reaction to one attempt: only a 200 reply stops it. */
  function Classify(a: OllamaAttempt): (s: Step<Listing>)
    ensures s.Succeeded? <==> a.Replied? && a.reply.status == 200
    ensures !s.Fatal?
  {
    match a
    case Replied(reply) =>
      if reply.status == 200 then
        Succeeded(Listed(reply))
      else Transient
    case RequestFailed => Transient
  }

  /** The same pause after every failed attempt. */
  function Constant(retryDelay: nat): nat -> nat {
    _ => retryDelay
  }

  /** `get_ollama_models(max_retries, retry_delay)`, with `script[k]` the outcome of request `k`. */
  function GetOllamaModels(script: seq<OllamaAttempt>, maxRetries: int, retryDelay: nat): (r: Run<Listing>)
    requires maxRetries <= |script|
    ensures maxRetries <= 0 ==> r == Run(Names([]), 0, [])
    ensures maxRetries > 0 ==> 1 <= r.calls <= maxRetries && |r.sleeps| == r.calls - 1
    ensures forall j :: 0 <= j < |r.sleeps| ==> r.sleeps[j] == retryDelay
  {
    Execute(Steps(script, Classify), maxRetries, Constant(retryDelay), Names([]))
  }

  /** True iff the attempt failed: a non-200 status or a connection error. */
  predicate Failed(a: OllamaAttempt) {
    a.RequestFailed? || a.reply.status != 200
  }

  /** A 200 reply on attempt `k` after `k` failures: `k + 1` requests, `k` sleeps, its names. */
  lemma SuccessOnAttempt(script: seq<OllamaAttempt>, maxRetries: int, retryDelay: nat, k: nat)
    requires maxRetries <= |script|
    requires k < maxRetries
    requires forall j :: 0 <= j < k ==> Failed(script[j])
    requires script[k].Replied? && script[k].reply.status == 200
    ensures GetOllamaModels(script, maxRetries, retryDelay)
         == Run(Listed(script[k].reply), k + 1, seq(k, _ => retryDelay))
  {
    var steps := Steps(script, Classify);
    FirstNonTransientStops(steps, maxRetries, Constant(retryDelay), Names([]), k);
    assert Trace(Constant(retryDelay), k) == seq(k, _ => retryDelay);
  }

  /** A 200 reply whose body has no `models` key lists nothing, and the loop still stops there. */
  lemma NoModelsKey(script: seq<OllamaAttempt>, maxRetries: int, retryDelay: nat)
    requires 0 < maxRetries <= |script|
    requires script[0].Replied? && script[0].reply.status == 200 && script[0].reply.models.None?
    ensures GetOllamaModels(script, maxRetries, retryDelay) == Run(Names([]), 1, [])
  {
    SuccessOnAttempt(script, maxRetries, retryDelay, 0);
  }

  /** All attempts fail: `max_retries` requests, `max_retries - 1` sleeps, no names. */
  lemma AllFail(script: seq<OllamaAttempt>, maxRetries: int, retryDelay: nat)
    requires 0 < maxRetries <= |script|
    requires forall j :: 0 <= j < maxRetries ==> Failed(script[j])
    ensures GetOllamaModels(script, maxRetries, retryDelay)
         == Run(Names([]), maxRetries, seq(maxRetries - 1, _ => retryDelay))
  {
    AllTransientExhausts(Steps(script, Classify), maxRetries, Constant(retryDelay), Names([]));
    assert Trace(Constant(retryDelay), maxRetries - 1) == seq(maxRetries - 1, _ => retryDelay);
  }

  /** With the default arguments and a server that never answers: 3 requests, two 5 s sleeps, no names. */
  lemma DefaultPolicyAllFail()
    ensures GetOllamaModels(seq(3, _ => RequestFailed), DefaultMaxRetries, DefaultRetryDelay)
         == Run(Names([]), 3, [5, 5])
  {
    var script := seq(3, _ => RequestFailed);
    AllFail(script, DefaultMaxRetries, DefaultRetryDelay);
    assert seq(2, _ => DefaultRetryDelay) == [5, 5];
  }

  /**
   * A non-200 reply and a connection error are handled alike: replacing one by the
   * other anywhere in the script changes nothing.
   */
  lemma FailuresAlike(script: seq<OllamaAttempt>, maxRetries: int, retryDelay: nat, k: nat, reply: TagsReply)
    requires maxRetries <= |script|
    requires k < |script|
    requires reply.status != 200
    ensures GetOllamaModels(script[k := Replied(reply)], maxRetries, retryDelay)
         == GetOllamaModels(script[k := RequestFailed], maxRetries, retryDelay)
  {
    assert Steps(script[k := Replied(reply)], Classify) == Steps(script[k := RequestFailed], Classify);
  }
}

=== FILE: retry.dfy ===
/**
 * The bounded retry loop shared by the knowledge-base query and the model listing:
 * `for attempt in range(max_retries)`, stop on success or on a fatal error, sleep
 * between attempts but never after the last one, and fall back to a default value
 * (the empty list in both callers) once the attempts run out.
 *
 * The remote service is a scripted oracle: `steps[k]` is how attempt `k` ended,
 * already classified by the caller.  Sleeping is recorded as a trace of delays.
 */
module Retry {

  /** How one attempt ended. */
  datatype Step<T> =
    | Succeeded(value: T)   // the call returned; its value is the result
    | Fatal                 // an error that is never retried
    | Transient             // an error that is retried while attempts remain

  /** A finished loop: its result, how many attempts ran and the sleeps between them. */
  datatype Run<T> = Run(result: T, calls: nat, sleeps: seq<nat>)

  /** The outcomes of a script of raw attempt results, classified one by one. */
  function Steps<A, T>(script: seq<A>, classify: A -> Step<T>): (steps: seq<Step<T>>)
    ensures |steps| == |script|
    ensures forall k :: 0 <= k < |script| ==> steps[k] == classify(script[k])
  {
    seq(|script|, k requires 0 <= k < |script| => classify(script[k]))
  }

  /** The delays `delay(0), …, delay(n - 1)`. */
  function Trace(delay: nat -> nat, n: nat): (t: seq<nat>)
    ensures |t| == n
    ensures forall j :: 0 <= j < n ==> t[j] == delay(j)
  {
    seq(n, j requires 0 <= j => delay(j))
  }

  /** True iff attempts `from` up to (excluding) `to` all failed transiently. */
  predicate AllTransient<T>(steps: seq<Step<T>>, from: nat, to: nat)
    requires from <= to <= |steps|
  {
    forall j :: from <= j < to ==> steps[j].Transient?
  }

  /**
   * The loop from attempt `attempt` on.  Its contract says exactly which attempt
   * ended the loop and why, and what was slept before it.
   */
  function From<T>(steps: seq<Step<T>>, maxRetries: int, delay: nat -> nat, fallback: T, attempt: nat)
    : (r: Run<T>)
    requires maxRetries <= |steps|
    decreases maxRetries - attempt
    ensures attempt >= maxRetries ==> r == Run(fallback, 0, [])
    ensures attempt < maxRetries ==>
      && 1 <= r.calls <= maxRetries - attempt
      && |r.sleeps| == r.calls - 1
      && AllTransient(steps, attempt, attempt + r.calls - 1)
      && var last := steps[attempt + r.calls - 1];
         && (last.Succeeded? ==> r.result == last.value)
         && (!last.Succeeded? ==> r.result == fallback)
         && (last.Transient? ==> attempt + r.calls == maxRetries)
    ensures forall j :: 0 <= j < |r.sleeps| ==> r.sleeps[j] == delay(attempt + j)
  {
    if attempt >= maxRetries then Run(fallback, 0, [])
    else
      match steps[attempt]
      case Succeeded(v) => Run(v, 1, [])
      case Fatal => Run(fallback, 1, [])
      case Transient =>
        if attempt < maxRetries - 1 then
          var rest := From(steps, maxRetries, delay, fallback, attempt + 1);
          Run(rest.result, rest.calls + 1, [delay(attempt)] + rest.sleeps)
        else
          Run(fallback, 1, [])
  }

  /** The whole loop, starting at attempt 0. */
  function Execute<T>(steps: seq<Step<T>>, maxRetries: int, delay: nat -> nat, fallback: T): (r: Run<T>)
    requires maxRetries <= |steps|
    ensures maxRetries <= 0 ==> r == Run(fallback, 0, [])
    ensures maxRetries > 0 ==> 1 <= r.calls <= maxRetries && r.sleeps == Trace(delay, r.calls - 1)
  {
    From(steps, maxRetries, delay, fallback, 0)
  }

  /**
   * The first attempt that does not fail transiently ends the loop: a success
   * returns its value, a fatal error returns the fallback, and only the delays
   * before it were slept.
   */
  lemma {:induction false} FirstNonTransientStops<T>(
    steps: seq<Step<T>>, maxRetries: int, delay: nat -> nat, fallback: T, k: nat)
    requires maxRetries <= |steps|
    requires k < maxRetries
    requires AllTransient(steps, 0, k)
    requires !steps[k].Transient?
    ensures Execute(steps, maxRetries, delay, fallback)
         == Run(if steps[k].Succeeded? then steps[k].value else fallback, k + 1, Trace(delay, k))
  {
    var r := Execute(steps, maxRetries, delay, fallback);
    // The contract of `From` names the attempt that ended the loop; it can only be `k`.
    var last := r.calls - 1;
    assert !(last > k) by { assert !steps[k].Transient?; }
    assert !(last < k);
  }

  /**
   * When every attempt fails transiently the loop runs all `maxRetries` attempts,
   * sleeps between consecutive ones only, and returns the fallback.
   */
  lemma {:induction false} AllTransientExhausts<T>(
    steps: seq<Step<T>>, maxRetries: int, delay: nat -> nat, fallback: T)
    requires 0 < maxRetries <= |steps|
    requires AllTransient(steps, 0, maxRetries)
    ensures Execute(steps, maxRetries, delay, fallback) == Run(fallback, maxRetries, Trace(delay, maxRetries - 1))
  {
    var r := Execute(steps, maxRetries, delay, fallback);
    assert steps[r.calls - 1].Transient?;
  }

  /** The loop never yields anything but a success value or the fallback. */
  lemma ResultIsValueOrFallback<T>(steps: seq<Step<T>>, maxRetries: int, delay: nat -> nat, fallback: T)
    requires maxRetries <= |steps|
    ensures var r := Execute(steps, maxRetries, delay, fallback);
      r.result == fallback || exists k :: 0 <= k < |steps| && steps[k] == Succeeded(r.result)
  {
    var r := Execute(steps, maxRetries, delay, fallback);
    if maxRetries > 0 && steps[r.calls - 1].Succeeded? {
      assert steps[r.calls - 1] == Succeeded(r.result);
    }
  }
}

=== FILE: split.dfy ===
/** Python's argument-less `str.split()`: the maximal runs of non-whitespace characters. */
module Split {
  import opened Strings

  /** Python `str.isspace` for one character. */
  predicate IsSpace(c: char) {
    var n := c as int;
    || (9 <= n <= 13)          // \t \n \v \f \r
    || (28 <= n <= 32)         // file/group/record/unit separators and ' '
    || n == 0x85 || n == 0xA0 || n == 0x1680
    || (0x2000 <= n <= 0x200A)
    || n == 0x2028 || n == 0x2029 || n == 0x202F || n == 0x205F || n == 0x3000
  }

  /** A token: non-empty and free of whitespace. */
  predicate IsWord(w: string) {
    |w| > 0 && forall i :: 0 <= i < |w| ==> !IsSpace(w[i])
  }

  /** The characters of `s` that are not whitespace, in order. */
  function NonSpace(s: string): string {
    if |s| == 0 then [] else (if IsSpace(s[0]) then [] else [s[0]]) + NonSpace(s[1..])
  }

  lemma {:induction false} NonSpaceAppend(a: string, b: string)
    ensures NonSpace(a + b) == NonSpace(a) + NonSpace(b)
  {
    if |a| == 0 {
      assert a + b == b;
    } else {
      assert (a + b)[1..] == a[1..] + b;
      NonSpaceAppend(a[1..], b);
    }
  }

  lemma {:induction false} NonSpaceOfWord(w: string)
    requires forall i :: 0 <= i < |w| ==> !IsSpace(w[i])
    ensures NonSpace(w) == w
  {
    if |w| > 0 {
      NonSpaceOfWord(w[1..]);
      assert w == [w[0]] + w[1..];
    }
  }

  /** The first index at or after `i` that holds whitespace, or `|s|`. */
  function WordEnd(s: string, i: nat): (n: nat)
    requires i <= |s|
    decreases |s| - i
    ensures i <= n <= |s|
    ensures forall k :: i <= k < n ==> !IsSpace(s[k])
    ensures n == |s| || IsSpace(s[n])
  {
    if i == |s| || IsSpace(s[i]) then i else WordEnd(s, i + 1)
  }

  /** `s.split()`. */
  function Tokens(s: string): (ts: seq<string>)
    decreases |s|
    ensures forall k :: 0 <= k < |ts| ==> IsWord(ts[k])
    ensures Concat(ts) == NonSpace(s)
  {
    if |s| == 0 then []
    else if IsSpace(s[0]) then Tokens(s[1..])
    else
      var n := WordEnd(s, 0);
      var rest := Tokens(s[n..]);
      assert s == s[..n] + s[n..];
      NonSpaceAppend(s[..n], s[n..]);
      NonSpaceOfWord(s[..n]);
      assert ([s[..n]] + rest)[1..] == rest;
      [s[..n]] + rest
  }

  /** Words joined by single spaces, the inverse of `Tokens` on word lists. */
  function JoinWords(ws: seq<string>): string {
    if |ws| == 0 then []
    else if |ws| == 1 then ws[0]
    else ws[0] + " " + JoinWords(ws[1..])
  }

  lemma {:induction false} TokensOfWordThen(w: string, rest: string)
    requires IsWord(w)
    requires |rest| == 0 || IsSpace(rest[0])
    ensures Tokens(w + rest) == [w] + Tokens(rest)
  {
    var s := w + rest;
    WordEndIs(s, 0, |w|);
    assert s[..|w|] == w;
    assert s[|w|..] == rest;
  }

  lemma {:induction false} WordEndIs(s: string, i: nat, n: nat)
    requires i <= n <= |s|
    requires forall k :: i <= k < n ==> !IsSpace(s[k])
    requires n == |s| || IsSpace(s[n])
    ensures WordEnd(s, i) == n
    decreases n - i
  {
    if i < n {
      WordEndIs(s, i + 1, n);
    }
  }

  /** Splitting words joined by spaces gives the words back. */
  lemma {:induction false} TokensOfJoinWords(ws: seq<string>)
    requires forall k :: 0 <= k < |ws| ==> IsWord(ws[k])
    ensures Tokens(JoinWords(ws)) == ws
  {
    if |ws| == 1 {
      TokensOfWordThen(ws[0], []);
      assert ws[0] + [] == ws[0];
    } else if |ws| > 1 {
      var tail := JoinWords(ws[1..]);
      TokensOfJoinWords(ws[1..]);
      TokensOfWordThen(ws[0], " " + tail);
      assert ws[0] + " " + tail == ws[0] + (" " + tail);
      assert (" " + tail)[1..] == tail;
      assert ws == [ws[0]] + ws[1..];
    }
  }

  /** A single word splits into itself. */
  lemma TokensOfWord(w: string)
    requires IsWord(w)
    ensures Tokens(w) == [w]
  {
    TokensOfWordThen(w, []);
    assert w + [] == w;
  }

  /**
   * A whitespace character separates: the text on each side of it splits on its
   * own.  With `TokensOfWord` and `Tokens([]) == []` this fixes `Tokens` on every input.
   */
  lemma {:induction false} TokensAroundSpace(a: string, c: char, b: string)
    requires IsSpace(c)
    ensures Tokens(a + [c] + b) == Tokens(a) + Tokens(b)
    decreases |a|
  {
    var s := a + [c] + b;
    if |a| == 0 {
      assert s == [c] + b;
      assert s[1..] == b;
    } else if IsSpace(a[0]) {
      assert s[0] == a[0];
      assert s[1..] == a[1..] + [c] + b;
      TokensAroundSpace(a[1..], c, b);
    } else {
      var n := WordEnd(a, 0);
      TokensAroundSpace(a[n..], c, b);
      LeadingWord(a, c, b, n);
    }
  }

  /** The step of `TokensAroundSpace` past a leading word of `a`, given the claim for the rest of `a`. */
  lemma LeadingWord(a: string, c: char, b: string, n: nat)
    requires IsSpace(c) && 0 < |a| && !IsSpace(a[0])
    requires n <= |a| && WordEnd(a, 0) == n
    requires Tokens(a[n..] + [c] + b) == Tokens(a[n..]) + Tokens(b)
    ensures Tokens(a + [c] + b) == Tokens(a) + Tokens(b)
  {
    TokensAtWordBefore(a, c, b, n);
    TokensAtWord(a, n);
    Regroup(a[..n], Tokens(a[n..]), Tokens(b));
  }

  lemma Regroup<T>(w: T, x: seq<T>, y: seq<T>)
    ensures [w] + (x + y) == ([w] + x) + y
  {
  }

  /** `a + [c] + b` starts with the same word as `a`, followed by the rest of `a`, `c` and `b`. */
  lemma TokensAtWordBefore(a: string, c: char, b: string, n: nat)
    requires IsSpace(c) && 0 < |a| && !IsSpace(a[0])
    requires n <= |a| && WordEnd(a, 0) == n
    ensures Tokens(a + [c] + b) == [a[..n]] + Tokens(a[n..] + [c] + b)
  {
    WordEndExtends(a, c, b, n);
    TokensAtWord(a + [c] + b, n);
  }

  /** Text after the end of `a` does not move the end of `a`'s first word, since `c` is a space. */
  lemma WordEndExtends(a: string, c: char, b: string, n: nat)
    requires IsSpace(c) && n <= |a| && WordEnd(a, 0) == n
    ensures WordEnd(a + [c] + b, 0) == n
    ensures (a + [c] + b)[..n] == a[..n] && (a + [c] + b)[n..] == a[n..] + [c] + b
  {
    var s := a + [c] + b;
    assert forall k :: 0 <= k < |a| ==> s[k] == a[k];
    assert s[|a|] == c;
    WordEndIs(s, 0, n);
  }

  /** A string starting with a word of length `n` splits into that word and the tokens after it. */
  lemma TokensAtWord(s: string, n: nat)
    requires 0 < |s| && !IsSpace(s[0])
    requires n <= |s| && WordEnd(s, 0) == n
    ensures Tokens(s) == [s[..n]] + Tokens(s[n..])
  {
  }
}

=== FILE: strings.dfy ===
/** Small string facts shared by the text exports and the request builders. */
module Strings {

  /** True iff `p` is a prefix of `s` (Python `str.startswith`). */
  predicate StartsWith(s: string, p: string) {
    |p| <= |s| && s[..|p|] == p
  }

  /** Concatenation of a sequence of strings, in order. */
  function Concat(parts: seq<string>): (r: string)
    ensures |parts| == 0 ==> r == []
  {
    if |parts| == 0 then [] else parts[0] + Concat(parts[1..])
  }

  lemma {:induction false} ConcatAppend(a: seq<string>, b: seq<string>)
    ensures Concat(a + b) == Concat(a) + Concat(b)
  {
    if |a| == 0 {
      assert a + b == b;
    } else {
      assert (a + b)[1..] == a[1..] + b;
      ConcatAppend(a[1..], b);
    }
  }

  /** The concatenation of `f(x)` for each `x` of `xs`, in order. */
  function ConcatMap<T>(f: T -> string, xs: seq<T>): string {
    if |xs| == 0 then [] else ConcatMap(f, xs[..|xs| - 1]) + f(xs[|xs| - 1])
  }

  /** One more element adds its piece at the end. */
  lemma ConcatMapSnoc<T>(f: T -> string, xs: seq<T>, x: T)
    ensures ConcatMap(f, xs + [x]) == ConcatMap(f, xs) + f(x)
  {
    var ys := xs + [x];
    assert ys[..|ys| - 1] == xs;
    assert ys[|ys| - 1] == x;
  }

  lemma {:induction false} ConcatMapAppend<T>(f: T -> string, a: seq<T>, b: seq<T>)
    ensures ConcatMap(f, a + b) == ConcatMap(f, a) + ConcatMap(f, b)
    decreases |b|
  {
    if |b| == 0 {
      assert a + b == a;
    } else {
      var b' := b[..|b| - 1];
      var x := b[|b| - 1];
      assert b == b' + [x];
      assert a + b == (a + b') + [x];
      ConcatMapAppend(f, a, b');
      ConcatMapSnoc(f, a + b', x);
      ConcatMapSnoc(f, b', x);
    }
  }

  /** Appends `f(x)` to `start` for each `x` of `xs` in turn, as a `+=` loop does. */
  method AppendEach<T>(start: string, f: T -> string, xs: seq<T>) returns (out: string)
    ensures out == start + ConcatMap(f, xs)
  {
    out := start;
    var i := 0;
    while i < |xs|
      invariant 0 <= i <= |xs|
      invariant out == start + ConcatMap(f, xs[..i])
    {
      assert xs[..i + 1] == xs[..i] + [xs[i]];
      ConcatMapSnoc(f, xs[..i], xs[i]);
      out := out + f(xs[i]);
      i := i + 1;
    }
    assert xs[..|xs|] == xs;
  }

  /** Number of occurrences of `c` in `s`. */
  function Count(s: string, c: char): nat {
    if |s| == 0 then 0 else (if s[0] == c then 1 else 0) + Count(s[1..], c)
  }

  lemma {:induction false} CountAppend(a: string, b: string, c: char)
    ensures Count(a + b, c) == Count(a, c) + Count(b, c)
  {
    if |a| == 0 {
      assert a + b == b;
    } else {
      assert (a + b)[1..] == a[1..] + b;
      CountAppend(a[1..], b, c);
    }
  }

  lemma {:induction false} CountAbsent(s: string, c: char)
    requires c !in s
    ensures Count(s, c) == 0
  {
    if |s| > 0 {
      assert forall x :: x in s[1..] ==> x in s;
      CountAbsent(s[1..], c);
    }
  }

  /** Python `s.replace(from, to)` for single characters: every `from` becomes `to`. */
  function ReplaceChar(s: string, from: char, to: char): (r: string)
    ensures |r| == |s|
    ensures forall i :: 0 <= i < |s| ==> r[i] == if s[i] == from then to else s[i]
  {
    if |s| == 0 then [] else [if s[0] == from then to else s[0]] + ReplaceChar(s[1..], from, to)
  }
}

=== FILE: values.dfy ===
/** The scalar values a loaded graph may carry as attributes, ids and labels. */
module Values {

  /** A JSON scalar as Python and JavaScript both see it. */
  datatype Value = Str(s: string) | Int(n: int) | Bool(b: bool) | Null

  /** Truthiness: Python's `if v:` and JavaScript's `v || …` agree on these values. */
  predicate Truthy(v: Value) {
    match v
    case Str(s) => |s| > 0
    case Int(n) => n != 0
    case Bool(b) => b
    case Null => false
  }

  /** Decimal digits of a natural number. */
  function Digits(n: nat): (r: string)
    ensures |r| > 0
    ensures forall i :: 0 <= i < |r| ==> '0' <= r[i] <= '9'
    decreases n
  {
    var d := [(('0' as int) + n % 10) as char];
    if n < 10 then d else Digits(n / 10) + d
  }

  /** Python `str(v)`, which an f-string applies to each placeholder. */
  function PyStr(v: Value): string {
    match v
    case Str(s) => s
    case Int(n) => if n < 0 then "-" + Digits(-n) else Digits(n)
    case Bool(b) => if b then "True" else "False"
    case Null => "None"
  }
}

=== FILE: wrappers.dfy ===
/** An optional value: Python's `None` / a missing key, JavaScript's `undefined`. */
module Wrappers {
  datatype Option<+T> = None | Some(value: T)
}
